=== FILE: README.md ===
# Shieldy badge generator, modelled in Dafny

Shieldy is a browser page that composes badge URLs for the shields.io
renderer. This project models the string-producing logic of its single
class, `ShieldyBadgeGenerator` (`script.js`), with the DOM reads replaced
by plain field values. It covers the following pieces, each followed by
the modules that model it:

- Static badges: text escaping, trimming and defaults, the
  `{label}-{message}-{color}` path and the conditional query parameters
  (`Text`, `PathText`, `Query`, `Fields`, `StaticBadge`).
- Dynamic badges: the catalog of 55 services with their ordered, flagged
  parameters, the required-parameter check, the path `switch` of
  `buildDynamicUrl` as a table of templates, and the shared query
  parameters joined by `?` or `&` (`Catalog`, `PathTemplates`,
  `DynamicBadge`).
- Colour normalisation (`Colors`).
- The favorites list: a newest-first list of at most twenty entries with
  no URL twice, and its save, delete and clear operations (`Favorites`).
- The `generateBadge` dispatch, the Markdown and HTML exports, the SVG
  download URL, the logo upload checks and the icon search (`Generator`).

Percent-encoding is the form-urlencoded serializer of `URLSearchParams`
(section 5.2 of the WHATWG URL Standard) together with ECMAScript
`encodeURIComponent`. Both are function-valued parameters, so the model
states the structure around them and not the byte-level encoding.

The model takes its catalog and `switch` as a parameter. The dynamic
generator is stated for any `Registry` (a catalog paired with a template
table). `DynamicBadge.Site` is the page's own pair, and
`DynamicBadge.SiteFits` proves the agreement that the generator's
guarantees need. `Generator.GenerateBadge` uses `Site`.

Two facts of the code shape what the model claims:

- The hex pattern of `normalizeColor` (script.js:1330) is
  `^#?[0-9A-Fa-f]{3,6}$`. It accepts 3, 4, 5 or 6 digits, and
  `Colors.NormalizeColor` accepts exactly those.
- `encodeText` is not injective: `"_"` and `"  "` both become `"__"`.
  No decoding round trip exists, so the model proves the collision
  (`PathText.EncodeTextNotInjective`) and states the escaping through its
  other lemmas.

## Model

| member | source | states |
|---|---|---|
| Text.Trim | script.js:286-292 | `trim()`: the result is a contiguous piece of the input with only whitespace removed on either side; it neither starts nor ends with whitespace; it is empty exactly when the input is all whitespace |
| Text.OrElse | script.js:286-290 | `x \|\| d` on strings: a non-empty value is kept and the empty string becomes the fallback |
| Text.Includes | script.js:1239-1240 | `includes`: true exactly when the needle occurs at some position of the text |
| Text.Lower | script.js:1239-1240 | `toLowerCase` on ASCII: same length, each letter lowered one by one, and no upper-case letter left |
| PathText.EncodeText | script.js:1338-1343 | the escaped text never contains a space |
| PathText.EncodeTextIsCharwise | script.js:1338-1343 | the three ordered global replacements equal one left-to-right pass that maps `-` to `--`, `_` to `__` and space to `_`; the later passes never re-escape what earlier ones wrote |
| PathText.EncodeTextSplit | script.js:1338-1343 | escaping a concatenation is the concatenation of the escapings |
| PathText.EncodeTextLength | script.js:1338-1343 | the escaped length is the input length plus the number of `-` plus the number of `_` |
| PathText.EncodeTextKeepsOrdinary | script.js:1338-1343 | every character other than `-`, `_` and space passes through unchanged and in order |
| PathText.EncodeTextPlain | script.js:1338-1343 | text without `-`, `_` or space is left exactly as it is |
| PathText.EncodeTextDashRunsEven | script.js:1339 | every maximal run of hyphens inside one escaped text has even length (this says nothing about the whole path: the colour is not escaped, and runs can merge across a separator) |
| PathText.EncodeTextNotInjective | script.js:1338-1343 | two different inputs, `_` and two spaces, escape to the same text |
| PathText.EncodeTextExample | script.js:1338-1343 | `a-b c_d` escapes to `a--b_c__d` |
| PathText.EncodeShape | script.js:1338-1343 | for any ordinary characters a, b, c, d, the text `a-b c_d` escapes to `a--b_c__d` |
| Colors.NormalizeColor | script.js:1308-1336 | a table name gives its hex value; otherwise a string matching `#?` plus 3 to 6 hex digits gives `#` plus its digits; anything else comes back unchanged |
| Colors.NamedColorsAreHex | script.js:1310-1323 | every table value is `#` followed by 3 or 6 hex digits, and none is itself a table name |
| Colors.NamesAreNotHex | script.js:1310-1330 | no table name matches the hex pattern, so the order of the two checks does not matter |
| Colors.NormalizeIdempotent | script.js:1308-1336 | normalising twice is normalising once |
| Colors.NormalizeClassifies | script.js:1308-1336 | the result is a `#`-prefixed hex colour exactly when the input is a table name or a hex colour; otherwise the input comes back and is not hex |
| Query.Serialize | script.js:328-329 | `params.toString()` is empty exactly when no parameter was appended |
| Query.SerializeAppend | script.js:328-329 | serialized pairs are joined by `&` in insertion order |
| Query.Joiner | script.js:401 | the joiner is `&` exactly when the URL already contains `?`, and `?` otherwise |
| Query.AppendQuery | script.js:328-329 | the URL is extended, and is longer exactly when the query is non-empty, in which case the separator and then the query follow |
| Query.BuildEmpty | script.js:303-330 | no parameter is appended exactly when every `if` condition fails |
| Query.LookupBuild | script.js:303-326 | with distinct keys, a key is present exactly when its condition holds, and then with the value that `if` appends |
| Query.BuildFollows | script.js:303-326 | appended keys keep the order of the `if` chain and occur at most once |
| PathTemplates.BuildDynamicUrl | script.js:408-549 | the URL starts with `https://img.shields.io/`, followed by the key's template filled with the values, or by the key itself when the `switch` has no case for it (the `default` branch) |
| PathTemplates.DownloadsUrl | script.js:439-443 | `github/downloads` puts `/{tag}` before `/total` exactly when the tag is non-empty |
| PathTemplates.SonarUrl | script.js:534-538 | `sonar/quality_gate` appends `?server=` and the URI-encoded server exactly when the server is non-empty |
| PathTemplates.CatalogFitsTemplates | script.js:408-549 | the catalog (script.js:592-1031) and the `switch` have the same keys; each case fills in exactly its service's parameters, in catalog order, and makes exactly the optional ones conditional |
| PathTemplates.FilledPlaceholders | script.js:408-549 | a fitting template whose required values are non-empty reads no missing value and no empty value in an unconditional placeholder |
| StaticBadge.StaticPath | script.js:300 | the path is `https://img.shields.io/badge/`, then the escaped label, `-`, the escaped message, `-` and the message colour, each at its stated offset, and nothing else |
| StaticBadge.ExtraSteps | script.js:303-326 | the `if` chain tests its keys in the order style, labelColor, logoSvg, logo, logoColor, cacheSeconds |
| StaticBadge.StaticUrl | script.js:285-334 | the URL lies under `https://img.shields.io/badge/` and extends the `{label}-{message}-{color}` path; it is longer exactly when a query parameter was added, and then `?` follows and the rest is the serialized parameter list |
| StaticBadge.StaticQueryRules | script.js:286-326 | `style=flat` and `labelColor=555` are never sent; an uploaded logo is sent as `logoSvg` and suppresses `logo`; `cacheSeconds` needs the checkbox; labelColor, logo and logoColor carry the trimmed field value, while style, cacheSeconds and logoSvg carry the raw value |
| StaticBadge.StaticQueryOrder | script.js:303-326 | parameters appear in the order style, labelColor, logoSvg or logo, logoColor, cacheSeconds, each at most once, never both logoSvg and logo |
| StaticBadge.StaticQueryEmpty | script.js:286-330 | no `?` is added exactly when style is flat or unset, the label colour is blank or 555, there is no uploaded logo, logo and logo colour are blank, and the cache is off or empty |
| StaticBadge.StaticUrlDefault | script.js:285-330 | with blank text fields and nothing optional set, the URL is exactly `https://img.shields.io/badge/label-message-brightgreen` |
| DynamicBadge.CollectParams | script.js:346-359 | every parameter of the service gets its trimmed input value and no other name is set; the flag stays true exactly when no required value is empty |
| DynamicBadge.DynamicPath | script.js:337-368 | a produced path starts with `https://img.shields.io/` |
| DynamicBadge.CollectAgrees | script.js:346-359 | two readings that agree on every parameter of the service collect the same values and the same flag |
| DynamicBadge.DynamicPathAgrees | script.js:337-368 | the dynamic path depends only on the service key and the inputs of that service's parameters |
| DynamicBadge.DynamicGivesUp | script.js:337-365 | the generator gives up exactly when the service is not in the catalog or some required parameter's trimmed input is empty |
| DynamicBadge.GenerateDynamic | script.js:336-406 | the URL is empty exactly when the generator gives up; otherwise it lies under the base URL and extends the path, is longer exactly when a shared parameter was added, and then continues with `&` if the path holds `?` and with `?` if not, followed by the serialized shared parameters |
| Catalog.Services | script.js:592-1031 | the 55 services of `dynamicServices`, each with its parameters in order and their required flags; `PathTemplates.CatalogFitsTemplates` states its agreement with the `switch` |
| PathTemplates.Templates | script.js:410-548 | the `case` arms of `buildDynamicUrl` as a table from key to template; `PathTemplates.CatalogFitsTemplates` states its agreement with the catalog |
| DynamicBadge.SiteFits | script.js:592-1031 | the page's catalog and `switch` agree key for key and parameter for parameter |
| DynamicBadge.DynamicFillsTemplate | script.js:358-368 | with an agreeing catalog and `switch`, a service that yields a URL has its own `case`, so the `default` branch (script.js:546-547) is never reached from here; the path is the base URL followed by that case's template rendered with the collected values, and every unconditional placeholder gets the trimmed, non-empty input of its parameter |
| DynamicBadge.DynamicQueryRules | script.js:371-398 | `style=flat`, `color=brightgreen` and `labelColor=555` are never sent; the message colour is sent as `color`; an uploaded logo is sent as `logoSvg` and suppresses `logo`; `cacheSeconds` never appears |
| DynamicBadge.SharedSteps | script.js:371-398 | the shared `if` chain tests its keys in the order style, logoSvg, logo, logoColor, color, labelColor |
| DynamicBadge.DynamicQueryOrder | script.js:371-398 | shared parameters appear in the order style, logoSvg or logo, logoColor, color, labelColor, each at most once, never both logoSvg and logo |
| Favorites.Sanitize | script.js:1583 | same length as the input; letters and digits stay and every other character becomes `-` |
| Favorites.FavoriteName | script.js:1577-1585 | static: the raw label and message, or their placeholder words when empty, joined by `-`; dynamic: the service key, or `dynamic` when none is chosen, sanitised; as long as that key and made only of `[A-Za-z0-9-]` |
| Favorites.SanitizeIdempotent | script.js:1583 | sanitising a sanitised name changes nothing |
| Favorites.InputsOf | script.js:1608-1613 | a parameter is recorded exactly when it belongs to the service and its input exists, with the input's raw value |
| Favorites.ConfigParams | script.js:1603-1614 | an unknown service records no parameters, and every recorded value is the raw input of that parameter |
| Favorites.CurrentConfig | script.js:1588-1618 | a static config exactly for the static tab, holding the raw label, message, label colour, message colour, style, logo, logo colour and link; a dynamic one holds the selected key and that service's existing inputs |
| Favorites.StaticConfigDeterminesUrl | script.js:1592-1601 | two forms with the same static config and the same cache settings give the same static badge URL, so the config records everything else the URL reads |
| Favorites.DynamicConfigDeterminesPath | script.js:1603-1614 | over the page's catalog, two forms with the same dynamic config give the same dynamic path, so the config records every input the path reads |
| Generator.SaveCurrent | script.js:1543-1574 | the saved entry has the favorite name, the tab, the generated URL and the current config; "Generate a badge first!" happens exactly when the dynamic generator gives up, since a static form always has a URL; a duplicate is refused with the list unchanged; a valid list stays valid |
| Favorites.SaveFavorite | script.js:1543-1574 | refused, with the list unchanged, exactly when the URL is empty or already saved; otherwise the new entry is first and the rest is the old list cut to nineteen |
| Favorites.SavePreservesValid | script.js:1559-1570 | saving keeps the list at twenty entries or fewer, with no empty URL and no URL twice |
| Favorites.SavedIsFound | script.js:1565 | after a save the URL is in the list and the previous newest entry is second |
| Favorites.SaveTwiceRefused | script.js:1559-1563 | saving the same URL again straight away is refused as a duplicate |
| Favorites.DeleteFavorite | script.js:1678-1683 | an entry survives exactly when it was in the list and its id differs |
| Favorites.DeleteKeepsOrder | script.js:1679 | the survivors keep their order, and exactly the entries with that id are gone |
| Favorites.DeletePreservesValid | script.js:1679 | deleting keeps the list valid |
| Favorites.ClearAllFavorites | script.js:1685-1697 | refused on an empty list; otherwise the list is emptied exactly when the user confirms and left as it was if not |
| Favorites.ClearPreservesValid | script.js:1685-1697 | clearing, confirmed or not, keeps the list valid |
| Generator.GenerateBadge | script.js:197-203 | the static tab's URL is the static builder's and lies under the `badge/` endpoint and its path; the dynamic tab's is the dynamic builder's, empty exactly when the dynamic path gives up and otherwise extending that path; either is empty or lies under `https://img.shields.io/` |
| Generator.Markdown | script.js:1410-1421 | a blank link gives the bare image; otherwise the export is `[`, the image, `](`, the trimmed link and `)`, with the length that adds up to |
| Generator.MarkdownLinkedIff | script.js:1414-1418 | the export starts with `[` exactly when the trimmed link is non-empty |
| Generator.Html | script.js:1423-1434 | a blank link gives the bare `<img>`; otherwise it is `<a href="` plus the trimmed link plus `">`, then the image, then `</a>`, with the length that adds up to |
| Generator.HtmlLinkedIff | script.js:1427-1431 | the export opens with `<a` exactly when the trimmed link is non-empty |
| Generator.SvgDownloadUrl | script.js:1442 | the badge URL followed by `&` if it already has `?` and by `?` if not, then `format=svg` |
| Generator.CheckUpload | script.js:1802-1813 | over 2 MiB is rejected first (exactly 2 MiB passes), then any MIME type not starting with `image/`; everything else is accepted |
| Generator.UploadMonotone | script.js:1805-1812 | a smaller file of the same type never fares worse: an accepted file stays accepted and a rejected type stays rejected for its type |
| Generator.FilterMatching | script.js:1237-1241 | an icon is kept exactly when its name or display name contains the term, ignoring ASCII case |
| Generator.FilterKeepsOrder | script.js:1237-1241 | the kept icons are a subsequence of the list, in its order, and there are as many as icons match |
| Generator.SearchIcons | script.js:1235-1242 | an empty term shows every icon; otherwise the filtered list, which keeps exactly the matching icons |
| Generator.EmptyTermKeepsAll | script.js:1237-1242 | the empty term matches every icon, so the empty-search shortcut agrees with filtering |
| Generator.MatchIgnoresCase | script.js:1239-1240 | matching a term and matching its lower-cased form agree |

## Left out

- DOM reads and writes, event wiring, tabs, the icon modal, toasts and
  theme handling are left out because they are user-interface plumbing. The
  fields are a `Fields.Form` record, and the uploaded logo is an
  `Option<string>` parameter.
- `applyTemplate` is a synchronous form fill from the template tables: it
  sets the label, message, message colour and style, then regenerates. It
  is left out with those tables. `applyDynamicTemplate` and `loadFavorite`
  are timer-sequenced form fills and are left out too. None of the three
  adds logic beyond the generators they end in.
- Clipboard writes, `fetch`, `Blob` and `FileReader` are asynchronous
  browser I/O and are left out. Only the URL that `downloadSvg` requests
  and the checks `handleLogoUpload` makes before reading are modelled.
- `localStorage` persistence is left out; the favorites list is an
  in-memory sequence.
- `Favorites.SaveFavorite` takes the whole entry as a parameter.
  `Generator.SaveCurrent` builds that entry the way `saveFavorite` does: the
  name from `FavoriteName`, the tab, the URL from `GenerateBadge` and the
  config from `CurrentConfig`. Only the id (`Date.now()`) and the creation
  time are passed in. The page saves `currentBadgeUrl`, the URL generated
  last. The model takes it to be the URL of the current form, because the
  page regenerates on every field change and tab switch (script.js:97-154,
  223, 270). The confirmation dialog's answer is a parameter.
- `formatFileSize` is left out because it is floating-point.
- The catalog keeps only each parameter's name and required flag. Display
  names, labels, placeholders, descriptions and example URLs only feed the
  form's HTML.
- `ParamName` is a closed set of the fourteen names the catalog uses. The
  source keys `paramValues` by arbitrary strings, but only these names
  ever occur.
- The source's `switch` is one table. Here the cases are grouped like the
  catalog groups; the union is the same map.
- JavaScript's `trim` also removes Unicode whitespace, and `toLowerCase`
  lowers non-ASCII letters. The model treats ASCII only.
- Strings are sequences of Unicode code points, while JavaScript strings
  are UTF-16 code units. The two differ only outside the Basic Multilingual
  Plane. There `Favorites.Sanitize` turns such a character into one `-`,
  where the page's `replace` gives `--`. Service keys come from the
  select's fixed options, so the page never meets such input.
- JavaScript property lookups also find inherited keys such as
  `toString`, in `colorMap[color]` and `dynamicServices[key]`. The model
  looks up only the tables' own keys.
- The concrete percent-encoding of `URLSearchParams` and
  `encodeURIComponent` is not modelled; see above.
- StaticBadge.StaticUrlDefault: states the default URL as
  `BadgeBase + "label" + "-" + "message" + "-" + "brightgreen"` rather than
  as one literal, because the solver handles literal concatenation poorly.
  The two denote the same string.
- Favorites.ConfigParams: only states that an unknown service records
  nothing and that each recorded value is the raw input. Which names are
  recorded is stated exactly on `Favorites.InputsOf`, which it calls.
- DynamicBadge.DynamicPath: states only the prefix. When it gives up is
  stated on `DynamicBadge.DynamicGivesUp`, and that a produced path is the
  service's template rendered with the collected, trimmed values on
  `DynamicBadge.DynamicFillsTemplate`.
- PathText.EncodeText: its contract states only that no space is left.
  The full behaviour is stated on the `PathText.EncodeText…` lemmas.

=== FILE: catalog.dfy ===
/** The dynamic service catalog (`initializeDynamicServices`, script.js:592-1031):
    a map from service key to its ordered parameter list, each parameter being
    the name of its input field and a required flag. The display name, labels,
    placeholders, descriptions and example URL of each entry only feed the
    form's HTML and are not kept. The entries are split into the groups the
    source itself marks, and `Services` is their union. */
module Catalog {
  /** The parameter names the catalog uses. Each names the input field
      `param-<name>` and the property of `paramValues` it fills. */
  datatype ParamName =
    | User | Repo | Tag | Version | Workflow | Package | Image | Subreddit
    | ChannelId | ServerId | Vcs | Project | Server | Platform

  /** A parameter: its input field and whether the badge needs a value. */
  datatype Param = Param(name: ParamName, required: bool)

  /** A service: its parameters, in the order the form lists them. */
  datatype Service = Service(params: seq<Param>)

  /** GitHub services (script.js:595-707). */
  const GitHubServices: map<string, Service> := map[
    "github/followers" := Service([Param(User, true)]),
    "github/stars" := Service([Param(User, true), Param(Repo, true)]),
    "github/forks" := Service([Param(User, true), Param(Repo, true)]),
    "github/watchers" := Service([Param(User, true), Param(Repo, true)]),
    "github/issues" := Service([Param(User, true), Param(Repo, true)]),
    "github/issues-pr" := Service([Param(User, true), Param(Repo, true)]),
    "github/release" := Service([Param(User, true), Param(Repo, true)]),
    "github/tag" := Service([Param(User, true), Param(Repo, true)]),
    "github/commits-since" := Service([Param(User, true), Param(Repo, true), Param(Version, true)]),
    "github/last-commit" := Service([Param(User, true), Param(Repo, true)]),
    "github/license" := Service([Param(User, true), Param(Repo, true)]),
    "github/languages/top" := Service([Param(User, true), Param(Repo, true)]),
    "github/repo-size" := Service([Param(User, true), Param(Repo, true)]),
    "github/downloads" := Service([Param(User, true), Param(Repo, true), Param(Tag, false)])
  ]

  /** NPM services (script.js:710-765). */
  const NpmServices: map<string, Service> := map[
    "npm/v" := Service([Param(Package, true)]),
    "npm/dt" := Service([Param(Package, true)]),
    "npm/dm" := Service([Param(Package, true)]),
    "npm/dw" := Service([Param(Package, true)]),
    "npm/dy" := Service([Param(Package, true)]),
    "npm/l" := Service([Param(Package, true)]),
    "npm/node" := Service([Param(Package, true)]),
    "npm/types" := Service([Param(Package, true)])
  ]

  /** NuGet services (script.js:768-788). */
  const NuGetServices: map<string, Service> := map[
    "nuget/v" := Service([Param(Package, true)]),
    "nuget/dt" := Service([Param(Package, true)]),
    "nuget/vpre" := Service([Param(Package, true)])
  ]

  /** PyPI services (script.js:791-846). */
  const PyPIServices: map<string, Service> := map[
    "pypi/v" := Service([Param(Package, true)]),
    "pypi/dm" := Service([Param(Package, true)]),
    "pypi/dw" := Service([Param(Package, true)]),
    "pypi/dd" := Service([Param(Package, true)]),
    "pypi/l" := Service([Param(Package, true)]),
    "pypi/pyversions" := Service([Param(Package, true)]),
    "pypi/status" := Service([Param(Package, true)]),
    "pypi/wheel" := Service([Param(Package, true)])
  ]

  /** Docker services (script.js:849-876). */
  const DockerServices: map<string, Service> := map[
    "docker/pulls" := Service([Param(Image, true)]),
    "docker/stars" := Service([Param(Image, true)]),
    "docker/automated" := Service([Param(Image, true)]),
    "docker/build" := Service([Param(Image, true)])
  ]

  /** Social services (script.js:879-913). */
  const SocialServices: map<string, Service> := map[
    "twitter/follow" := Service([Param(User, true)]),
    "reddit/subreddit-subscribers" := Service([Param(Subreddit, true)]),
    "youtube/channel/subscribers" := Service([Param(ChannelId, true)]),
    "youtube/channel/views" := Service([Param(ChannelId, true)]),
    "discord" := Service([Param(ServerId, true)])
  ]

  /** CI/CD services (script.js:916-957). */
  const CiServices: map<string, Service> := map[
    "travis" := Service([Param(User, true), Param(Repo, true)]),
    "circleci/build" := Service([Param(Vcs, true), Param(User, true), Param(Repo, true)]),
    "appveyor/ci" := Service([Param(User, true), Param(Repo, true)]),
    "gitlab/pipeline" := Service([Param(User, true), Param(Repo, true)]),
    "github/workflow/status" := Service([Param(User, true), Param(Repo, true), Param(Workflow, true)])
  ]

  /** Code Quality services (script.js:960-1010). */
  const QualityServices: map<string, Service> := map[
    "codecov/c" := Service([Param(Vcs, true), Param(User, true), Param(Repo, true)]),
    "coveralls" := Service([Param(Vcs, true), Param(User, true), Param(Repo, true)]),
    "codeclimate/maintainability" := Service([Param(User, true), Param(Repo, true)]),
    "codeclimate/tech-debt" := Service([Param(User, true), Param(Repo, true)]),
    "scrutinizer/g" := Service([Param(Vcs, true), Param(User, true), Param(Repo, true)]),
    "sonar/quality_gate" := Service([Param(Project, true), Param(Server, false)])
  ]

  /** Security services (script.js:1013-1030). */
  const SecurityServices: map<string, Service> := map[
    "snyk/vulnerabilities" := Service([Param(Vcs, true), Param(User, true), Param(Repo, true)]),
    "librariesio/dependents" := Service([Param(Platform, true), Param(Package, true)])
  ]

  /** The whole catalog. */
  const Services: map<string, Service> :=
    GitHubServices + NpmServices + NuGetServices + PyPIServices + DockerServices
    + SocialServices + CiServices + QualityServices + SecurityServices

  /** The names of the parameters of `ps`. */
  function ParamNames(ps: seq<Param>): (names: set<ParamName>)
    ensures forall i :: 0 <= i < |ps| ==> ps[i].name in names
    ensures forall n :: n in names ==> exists i :: 0 <= i < |ps| && ps[i].name == n
  {
    set i | 0 <= i < |ps| :: ps[i].name
  }
}

=== FILE: colors.dfy ===
/** Colour normalisation (`normalizeColor`, script.js:1308-1336): a fixed table of
    twelve colour names, then the pattern `^#?[0-9A-Fa-f]{3,6}$`, then
    pass-through. Only the table's own twelve keys are looked up; JavaScript's
    inherited object keys (`toString`, ...) are not modelled. */
module Colors {
  import opened Text

  /** The twelve named colours and their hex values. */
  const NamedColors: map<string, string> := map[
    "brightgreen" := "#4c1",
    "green" := "#4c1",
    "yellow" := "#dfb317",
    "orange" := "#fe7d37",
    "red" := "#e05d44",
    "blue" := "#007ec6",
    "lightgrey" := "#9f9f9f",
    "success" := "#4c1",
    "important" := "#fe7d37",
    "critical" := "#e05d44",
    "informational" := "#007ec6",
    "inactive" := "#9f9f9f"
  ]

  predicate IsHexDigit(c: char) {
    ('0' <= c <= '9') || ('A' <= c <= 'F') || ('a' <= c <= 'f')
  }

  /** `c` without its leading `#`, if it has one. */
  function HexDigits(c: string): (d: string)
    ensures c == d || c == "#" + d
    ensures |c| > 0 && c[0] == '#' <==> c == "#" + d
  {
    if |c| > 0 && c[0] == '#' then c[1..] else c
  }

  /** `/^#?[0-9A-Fa-f]{3,6}$/.test(c)`: an optional `#` followed by three to six
      hex digits and nothing else. Since `#` is not a hex digit, a leading `#`
      can only be matched by the optional part. */
  predicate IsHexColor(c: string) {
    var d := HexDigits(c);
    3 <= |d| <= 6 && forall i :: 0 <= i < |d| ==> IsHexDigit(d[i])
  }

  /** `normalizeColor`. A table name maps to its hex value; a hex colour comes
      back with exactly one leading `#` and the same digits; anything else is
      returned unchanged. */
  function NormalizeColor(c: string): (r: string)
    ensures c in NamedColors ==> r == NamedColors[c]
    ensures c !in NamedColors && IsHexColor(c) ==> r == "#" + HexDigits(c)
    ensures c !in NamedColors && !IsHexColor(c) ==> r == c
  {
    if c in NamedColors then NamedColors[c]
    else if IsHexColor(c) then (if StartsWith(c, "#") then c else "#" + c)
    else c
  }

  /** Every table value is itself a `#`-prefixed hex colour of three or six
      digits, and no table name looks like a hex colour. */
  lemma NamedColorsAreHex()
    ensures forall n :: n in NamedColors ==>
      IsHexColor(NamedColors[n]) && NamedColors[n][0] == '#'
      && (|NamedColors[n]| == 4 || |NamedColors[n]| == 7)
      && NamedColors[n] !in NamedColors
  {
    forall n | n in NamedColors
      ensures IsHexColor(NamedColors[n]) && NamedColors[n][0] == '#'
      ensures |NamedColors[n]| == 4 || |NamedColors[n]| == 7
      ensures NamedColors[n] !in NamedColors
    {
      var v := NamedColors[n];
      assert v == "#4c1" || v == "#dfb317" || v == "#fe7d37" || v == "#e05d44" || v == "#007ec6" || v == "#9f9f9f";
      HashHex(v);
      HashIsNoName(v);
    }
  }

  /** The six distinct table values are hex colours behind a `#`. */
  lemma HashHex(v: string)
    requires v == "#4c1" || v == "#dfb317" || v == "#fe7d37" || v == "#e05d44" || v == "#007ec6" || v == "#9f9f9f"
    ensures IsHexColor(v) && v[0] == '#' && (|v| == 4 || |v| == 7)
  {
    assert HexDigits(v) == v[1..];
  }

  /** No table name starts with `#`. */
  lemma HashIsNoName(v: string)
    requires |v| > 0 && v[0] == '#'
    ensures v !in NamedColors
  {
  }

  /** The result of normalising is always a table-free fixed point: a second
      normalisation changes nothing. */
  lemma NormalizeIdempotent(c: string)
    ensures NormalizeColor(NormalizeColor(c)) == NormalizeColor(c)
  {
    var r := NormalizeColor(c);
    if c in NamedColors {
      NamedColorsAreHex();
      assert HexDigits(r) == r[1..];
      assert "#" + r[1..] == r;
    } else if IsHexColor(c) {
      var d := HexDigits(c);
      assert r == "#" + d;
      assert r[1..] == d;
      assert HexDigits(r) == d;
      assert IsHexColor(r);
      NamesAreNotHex();
    }
  }

  /** None of the twelve table names matches the hex pattern. */
  lemma NamesAreNotHex()
    ensures forall n :: n in NamedColors ==> !IsHexColor(n)
  {
    forall n | n in NamedColors ensures !IsHexColor(n) {
      assert n in NamedColors.Keys;
      if n == "green" || n == "yellow" || n == "orange" || n == "red" {
        assert HexDigits(n) == n && !IsHexDigit(n[0]);
      } else if n == "blue" {
        assert HexDigits(n) == n && !IsHexDigit(n[1]);
      }
    }
  }

  /** The result is a hex colour with a leading `#` exactly when the input is a
      table name or a hex colour; otherwise the input comes back as it was. */
  lemma NormalizeClassifies(c: string)
    ensures (c in NamedColors || IsHexColor(c)) <==>
      (IsHexColor(NormalizeColor(c)) && NormalizeColor(c)[0] == '#')
    ensures !(c in NamedColors || IsHexColor(c)) <==> NormalizeColor(c) == c && !IsHexColor(c)
  {
    NamedColorsAreHex();
    if !(c in NamedColors) && IsHexColor(c) {
      var d := HexDigits(c);
      assert NormalizeColor(c)[1..] == d;
      assert HexDigits(NormalizeColor(c)) == d;
    }
  }
}

=== FILE: dynamic_badge.dfy ===
/** Dynamic badge URLs (`generateDynamicBadge`, script.js:336-406): look the
    selected service up in the catalog, read and trim its parameter inputs,
    give up with the empty URL when the service is unknown or a required
    value is blank, fill in the service's path template, then append the
    shared style, logo and colour parameters with `?` or `&`. */
module DynamicBadge {
  import opened Wrappers
  import opened Text
  import opened Query
  import opened Catalog
  import opened PathTemplates
  import opened Fields

  /** The values `paramValues` ends up with, and whether every required one
      is non-empty (`hasRequiredParams`). */
  datatype Collected = Collected(values: map<ParamName, string>, complete: bool)

  /** `input.value.trim()` for the input of each parameter, or "" when the
      parameter has no input. */
  function TrimmedInputs(f: Form): ParamName -> string {
    n => Trim(RawInput(f, n))
  }

  /** The `service.params.forEach` loop, with `read` giving each parameter's
      trimmed input: every parameter gets its value, and a required parameter
      whose value is empty clears the flag. (Each value depends only on the
      name, so the order in which entries are written does not matter.) */
  function CollectParams(ps: seq<Param>, read: ParamName -> string): (r: Collected)
    ensures forall i :: 0 <= i < |ps| ==> ps[i].name in r.values
    ensures forall n :: n in r.values ==> r.values[n] == read(n) && n in ParamNames(ps)
    ensures r.complete <==> forall i :: 0 <= i < |ps| && ps[i].required ==> read(ps[i].name) != ""
  {
    if ps == [] then Collected(map[], true)
    else
      var rest := CollectParams(ps[1..], read);
      Collected(rest.values[ps[0].name := read(ps[0].name)],
                rest.complete && !(ps[0].required && read(ps[0].name) == ""))
  }

  /** The order in which `generateDynamicBadge` appends shared parameters. */
  const DynamicOrder: seq<ParamKey> := [Style, LogoSvg, Logo, LogoColor, Color, LabelColor]

  /** The values `generateDynamicBadge` reads for its shared parameters:
      the style select, the uploaded logo, and the trimmed logo, logo colour,
      message colour and label colour fields. */
  datatype Shared = Shared(style: string, customLogo: Option<string>, logo: string,
                           logoColor: string, color: string, labelColor: string)

  function SharedOf(f: Form, customLogo: Option<string>): Shared {
    Shared(StyleOf(f), customLogo, LogoOf(f), LogoColorOf(f), Trim(f.messageColor), Trim(f.labelColor))
  }

  /** The conditional appends of `generateDynamicBadge`, in source order. The
      message colour becomes `color`, and neither colour has a default here:
      an empty field is simply not sent. */
  function SharedSteps(s: Shared): (steps: seq<Step>)
    ensures StepKeys(steps) == DynamicOrder
  {
    [ Step(s.style != "" && s.style != "flat", Style, s.style),
      Step(HasCustomLogo(s.customLogo), LogoSvg, ValueOr(s.customLogo, "")),
      Step(!HasCustomLogo(s.customLogo) && s.logo != "", Logo, s.logo),
      Step(s.logoColor != "", LogoColor, s.logoColor),
      Step(s.color != "" && s.color != "brightgreen", Color, s.color),
      Step(s.labelColor != "" && s.labelColor != "555", LabelColor, s.labelColor) ]
  }

  function DynamicSteps(f: Form, customLogo: Option<string>): seq<Step> {
    SharedSteps(SharedOf(f, customLogo))
  }

  /** The shared query parameters of a dynamic badge. */
  function DynamicParams(f: Form, customLogo: Option<string>): seq<QueryParam> {
    Build(DynamicSteps(f, customLogo))
  }

  /** The catalog together with the `switch` of `buildDynamicUrl`. The
      generator is stated for any such pair, so that its proofs do not depend
      on the 55 entries; `Site` is the pair the page uses. */
  datatype Registry = Registry(services: map<string, Service>, cases: map<string, Template>)

  const Site := Registry(Services, Templates)

  /** The first half of `generateDynamicBadge`: `None` when it gives up, and
      otherwise the path `buildDynamicUrl` makes from the collected values
      (`DynamicGivesUp` says when it gives up). */
  function DynamicPath(reg: Registry, f: Form, uriEnc: UriEncoder): (p: Option<string>)
    ensures p.Some? ==> StartsWith(p.value, DynamicBase)
  {
    if f.service !in reg.services then None
    else
      var collected := CollectParams(reg.services[f.service].params, TrimmedInputs(f));
      if !collected.complete then None
      else Some(BuildDynamicUrl(reg.cases, f.service, collected.values, uriEnc))
  }

  /** `generateDynamicBadge` gives up exactly when the service is not in the
      catalog or a required parameter's trimmed input is empty. */
  lemma DynamicGivesUp(reg: Registry, f: Form, uriEnc: UriEncoder)
    ensures DynamicPath(reg, f, uriEnc).None? <==>
      f.service !in reg.services
      || exists i :: 0 <= i < |reg.services[f.service].params|
           && reg.services[f.service].params[i].required
           && Trim(RawInput(f, reg.services[f.service].params[i].name)) == ""
  {
    if f.service in reg.services {
      var read := TrimmedInputs(f);
      var ps := reg.services[f.service].params;
      CollectIncomplete(ps, read);
      assert forall i :: 0 <= i < |ps| ==> read(ps[i].name) == Trim(RawInput(f, ps[i].name));
    }
  }

  /** Two readings that agree on the parameters collect the same values. */
  lemma {:induction false} CollectAgrees(ps: seq<Param>, read1: ParamName -> string, read2: ParamName -> string)
    requires forall i :: 0 <= i < |ps| ==> read1(ps[i].name) == read2(ps[i].name)
    ensures CollectParams(ps, read1) == CollectParams(ps, read2)
  {
    if ps != [] {
      CollectAgrees(ps[1..], read1, read2);
    }
  }

  /** The path depends only on the service key and the raw inputs of that
      service's parameters. */
  lemma DynamicPathAgrees(reg: Registry, f1: Form, f2: Form, uriEnc: UriEncoder)
    requires f1.service == f2.service
    requires f1.service in reg.services ==>
      forall i :: 0 <= i < |reg.services[f1.service].params| ==>
        RawInput(f1, reg.services[f1.service].params[i].name)
        == RawInput(f2, reg.services[f1.service].params[i].name)
    ensures DynamicPath(reg, f1, uriEnc) == DynamicPath(reg, f2, uriEnc)
  {
    if f1.service in reg.services {
      var ps := reg.services[f1.service].params;
      CollectAgrees(ps, TrimmedInputs(f1), TrimmedInputs(f2));
    }
  }

  /** A collection is incomplete exactly when some required value is empty. */
  lemma CollectIncomplete(ps: seq<Param>, read: ParamName -> string)
    ensures !CollectParams(ps, read).complete <==>
      exists i :: 0 <= i < |ps| && ps[i].required && read(ps[i].name) == ""
  {
  }

  /** `generateDynamicBadge`. The URL is empty exactly when the path is
      abandoned. Otherwise it extends the path, and it is longer exactly when
      a shared parameter was added: then the serialized parameters follow,
      joined by `&` if the path already holds a `?` and by `?` if not. */
  function GenerateDynamic(reg: Registry, f: Form, customLogo: Option<string>, enc: Encoder,
                           uriEnc: UriEncoder): (url: string)
    ensures url == "" <==> DynamicPath(reg, f, uriEnc).None?
    ensures url != "" ==> StartsWith(url, DynamicBase)
    ensures DynamicPath(reg, f, uriEnc).Some? ==>
      var path := DynamicPath(reg, f, uriEnc).value;
      && StartsWith(url, path)
      && (|url| > |path| <==> DynamicParams(f, customLogo) != [])
      && (|url| > |path| ==>
            && url[|path|] == (if '?' in path then '&' else '?')
            && url[|path| + 1..] == Serialize(DynamicParams(f, customLogo), enc))
  {
    match DynamicPath(reg, f, uriEnc)
    case None => ""
    case Some(path) =>
      var sep := Joiner(path);
      assert sep[0] == (if '?' in path then '&' else '?');
      var url := AppendQuery(path, sep, Serialize(DynamicParams(f, customLogo), enc));
      StartsWithTrans(url, path, DynamicBase);
      url
  }

  // ---- what reaches `buildDynamicUrl` ---------------------------------------

  /** The page's catalog and `switch` agree: same keys, and each template
      fits its service. */
  lemma SiteFits()
    ensures AllFit(Site.services, Site.cases)
  {
    CatalogFitsTemplates();
  }

  /** When the catalog and the `switch` agree (as `SiteFits` shows the page's
      do), a service that produces a URL has its own `case` in
      `buildDynamicUrl`, so the `default` branch is never reached from here;
      the path is that case's template rendered with the collected values,
      and every unconditional placeholder of the template is filled with the
      trimmed, non-empty input of that parameter. */
  lemma DynamicFillsTemplate(reg: Registry, f: Form, uriEnc: UriEncoder)
    requires AllFit(reg.services, reg.cases)
    requires DynamicPath(reg, f, uriEnc).Some?
    ensures f.service in reg.cases
    ensures DynamicPath(reg, f, uriEnc).value
      == DynamicBase + Render(reg.cases[f.service],
                              CollectParams(reg.services[f.service].params, TrimmedInputs(f)).values, uriEnc)
    ensures var t := reg.cases[f.service];
      var values := CollectParams(reg.services[f.service].params, TrimmedInputs(f)).values;
      forall a :: 0 <= a < |t| && t[a].Field? ==>
        t[a].param in values && values[t[a].param] == Trim(RawInput(f, t[a].param)) != ""
  {
    assert f.service in reg.services;
    var svc := reg.services[f.service];
    assert CollectParams(svc.params, TrimmedInputs(f)).complete;
    CollectedFills(reg.cases[f.service], svc, TrimmedInputs(f));
  }

  /** For a template that fits its service, a complete collection has a
      non-empty value, the one read, for every unconditional placeholder. */
  lemma CollectedFills(t: Template, svc: Service, read: ParamName -> string)
    requires Fits(t, svc) && CollectParams(svc.params, read).complete
    ensures var values := CollectParams(svc.params, read).values;
      forall a :: 0 <= a < |t| && t[a].Field? ==>
        t[a].param in values && values[t[a].param] == read(t[a].param) != ""
  {
    var values := CollectParams(svc.params, read).values;
    FilledPlaceholders(t, svc.params, 0, 0, values);
  }

  // ---- shared query parameters ---------------------------------------------

  lemma DynamicOrderDistinct()
    ensures DistinctKeys(DynamicOrder)
  {
  }

  /** The shared parameters appear in the order style, logoSvg or logo,
      logoColor, color, labelColor, each at most once, and `logoSvg` and
      `logo` are never both present. */
  lemma DynamicQueryOrder(f: Form, customLogo: Option<string>)
    ensures Sublist(Keys(DynamicParams(f, customLogo)), DynamicOrder)
    ensures DistinctKeys(Keys(DynamicParams(f, customLogo)))
    ensures !(Lookup(DynamicParams(f, customLogo), LogoSvg).Some?
              && Lookup(DynamicParams(f, customLogo), Logo).Some?)
  {
    SublistRefl(DynamicOrder);
    DynamicOrderDistinct();
    BuildFollows(DynamicSteps(f, customLogo), DynamicOrder);
    SharedLogoRules(SharedOf(f, customLogo));
  }

  /** Each shared parameter appears with the value the source gives it,
      exactly when it differs from the renderer's default: `style=flat`,
      `color=brightgreen` and `labelColor=555` are never sent, and an uploaded
      logo is sent as `logoSvg` and then suppresses `logo`. */
  lemma DynamicQueryRules(f: Form, customLogo: Option<string>)
    ensures var ps := DynamicParams(f, customLogo);
      && Lookup(ps, Style) == (if f.style != "" && f.style != "flat" then Some(f.style) else None)
      && Lookup(ps, LogoSvg) == (if HasCustomLogo(customLogo) then Some(customLogo.value) else None)
      && Lookup(ps, Logo)
         == (if !HasCustomLogo(customLogo) && Trim(f.logo) != "" then Some(Trim(f.logo)) else None)
      && Lookup(ps, LogoColor) == (if Trim(f.logoColor) != "" then Some(Trim(f.logoColor)) else None)
      && Lookup(ps, Color)
         == (if Trim(f.messageColor) != "" && Trim(f.messageColor) != "brightgreen"
             then Some(Trim(f.messageColor)) else None)
      && Lookup(ps, LabelColor)
         == (if Trim(f.labelColor) != "" && Trim(f.labelColor) != "555" then Some(Trim(f.labelColor)) else None)
      && Lookup(ps, CacheSeconds) == None
  {
    SharedLogoRules(SharedOf(f, customLogo));
    SharedOtherRules(SharedOf(f, customLogo));
    SharedNoCache(SharedOf(f, customLogo));
  }

  /** `logoSvg` and `logo` for any shared values. */
  lemma SharedLogoRules(s: Shared)
    ensures var ps := Build(SharedSteps(s));
      && Lookup(ps, LogoSvg) == (if HasCustomLogo(s.customLogo) then Some(s.customLogo.value) else None)
      && Lookup(ps, Logo) == (if !HasCustomLogo(s.customLogo) && s.logo != "" then Some(s.logo) else None)
  {
    DynamicOrderDistinct();
    LookupBuild(SharedSteps(s), 1);
    LookupBuild(SharedSteps(s), 2);
  }

  /** A dynamic badge never carries `cacheSeconds`. */
  lemma SharedNoCache(s: Shared)
    ensures Lookup(Build(SharedSteps(s)), CacheSeconds) == None
  {
    BuildUnnamed(SharedSteps(s), CacheSeconds);
  }

  /** The style and colour parameters for any shared values. */
  lemma SharedOtherRules(s: Shared)
    ensures var ps := Build(SharedSteps(s));
      && Lookup(ps, Style) == (if s.style != "" && s.style != "flat" then Some(s.style) else None)
      && Lookup(ps, LogoColor) == (if s.logoColor != "" then Some(s.logoColor) else None)
      && Lookup(ps, Color) == (if s.color != "" && s.color != "brightgreen" then Some(s.color) else None)
      && Lookup(ps, LabelColor)
         == (if s.labelColor != "" && s.labelColor != "555" then Some(s.labelColor) else None)
  {
    DynamicOrderDistinct();
    LookupBuild(SharedSteps(s), 0);
    LookupBuild(SharedSteps(s), 3);
    LookupBuild(SharedSteps(s), 4);
    LookupBuild(SharedSteps(s), 5);
  }
}

=== FILE: favorites.dfy ===
/** The favorites list (script.js:1543-1617, 1678-1697): newest first, at most
    twenty entries, no two with the same URL. The list lives in memory here;
    `localStorage`, toasts and the confirmation dialog are outside the model
    (the dialog's answer is a parameter). The id (`Date.now()`) and the
    creation time are passed in with the new entry. */
module Favorites {
  import opened Wrappers
  import opened Seqs
  import opened Text
  import opened Catalog
  import opened Fields
  import opened Query
  import opened PathTemplates
  import opened StaticBadge
  import opened DynamicBadge

  const MaxFavorites: nat := 20

  /** The editor state `getCurrentConfig` records. Static badges keep their raw
      fields; dynamic badges keep the service key and the raw value of every
      parameter input that exists. */
  datatype Config =
    | StaticConfig(labelText: string, messageText: string, labelColor: string, messageColor: string,
                   style: string, logo: string, logoColor: string, link: string)
    | DynamicConfig(service: string, params: map<ParamName, string>)

  datatype Favorite = Favorite(id: int, name: string, badgeType: BadgeType, url: string,
                               config: Config, created: string)

  // ---- names and configs ---------------------------------------------------

  predicate IsAlnum(c: char) {
    ('a' <= c <= 'z') || ('A' <= c <= 'Z') || ('0' <= c <= '9')
  }

  /** `s.replace(/[^a-zA-Z0-9]/g, '-')`: every character outside `[A-Za-z0-9]`
      becomes a hyphen, the others stay. */
  function Sanitize(s: string): (r: string)
    ensures |r| == |s|
    ensures forall i :: 0 <= i < |s| ==> r[i] == (if IsAlnum(s[i]) then s[i] else '-')
  {
    seq(|s|, i requires 0 <= i < |s| => if IsAlnum(s[i]) then s[i] else '-')
  }

  /** `generateFavoriteName`. Static: the raw label and message (not trimmed),
      each replaced by its placeholder word when empty, joined by a hyphen.
      Dynamic: the service key, or `dynamic` when none is selected, with
      every character outside `[A-Za-z0-9]` turned into a hyphen. */
  function FavoriteName(t: BadgeType, f: Form): (name: string)
    ensures t == Dynamic ==> name == Sanitize(OrElse(f.service, "dynamic"))
    ensures t == Dynamic ==>
      |name| == |OrElse(f.service, "dynamic")|
      && forall i :: 0 <= i < |name| ==> IsAlnum(name[i]) || name[i] == '-'
    ensures t == Static ==>
      name == OrElse(f.labelText, "label") + "-" + OrElse(f.messageText, "message")
  {
    match t
    case Static => OrElse(f.labelText, "label") + "-" + OrElse(f.messageText, "message")
    case Dynamic => Sanitize(OrElse(f.service, "dynamic"))
  }

  /** Sanitising changes nothing in a name that is already clean, so a
      dynamic favorite's name is stable under a second sanitising. */
  lemma SanitizeIdempotent(s: string)
    ensures Sanitize(Sanitize(s)) == Sanitize(s)
  {
  }

  /** The parameter inputs `getCurrentConfig` copies for a dynamic badge: those
      of the selected service whose input exists. */
  function ConfigParams(f: Form): (ps: map<ParamName, string>)
    ensures f.service !in Services ==> ps == map[]
    ensures forall n :: n in ps ==> n in f.paramInputs && ps[n] == f.paramInputs[n]
  {
    if f.service in Services then InputsOf(Services[f.service].params, f.paramInputs) else map[]
  }

  /** The `params.forEach` of `getCurrentConfig`: each parameter whose input
      exists, with that input's raw value. */
  function InputsOf(params: seq<Param>, inputs: map<ParamName, string>): (ps: map<ParamName, string>)
    ensures forall n :: n in ps <==> n in ParamNames(params) && n in inputs
    ensures forall n :: n in ps ==> ps[n] == inputs[n]
  {
    map n | n in ParamNames(params) && n in inputs :: inputs[n]
  }

  /** `getCurrentConfig`. The values are raw: `x || ''` changes no string. */
  function CurrentConfig(t: BadgeType, f: Form): (c: Config)
    ensures c.StaticConfig? <==> t == Static
    ensures c.DynamicConfig? ==> c.service == f.service && c.params == ConfigParams(f)
    ensures c.StaticConfig? ==>
      && c.labelText == f.labelText && c.messageText == f.messageText
      && c.labelColor == f.labelColor && c.messageColor == f.messageColor
      && c.style == f.style && c.logo == f.logo && c.logoColor == f.logoColor
      && c.link == f.link
  {
    match t
    case Static =>
      StaticConfig(f.labelText, f.messageText, f.labelColor, f.messageColor,
                   f.style, f.logo, f.logoColor, f.link)
    case Dynamic => DynamicConfig(f.service, ConfigParams(f))
  }

  /** What `loadFavorite` relies on: two forms with the same static config
      give the same static badge, as long as the uploaded logo and the cache
      setting, which the config does not record, agree too. */
  lemma StaticConfigDeterminesUrl(f1: Form, f2: Form, customLogo: Option<string>, enc: Encoder)
    requires CurrentConfig(Static, f1) == CurrentConfig(Static, f2)
    requires f1.cacheEnabled == f2.cacheEnabled && f1.cacheSeconds == f2.cacheSeconds
    ensures StaticUrl(f1, customLogo, enc) == StaticUrl(f2, customLogo, enc)
  {
    assert ExtrasOf(f1, customLogo) == ExtrasOf(f2, customLogo);
    assert StaticPath(f1) == StaticPath(f2);
  }

  /** Two forms with the same dynamic config give the same dynamic path: the
      config records every parameter input the path reads. This holds for
      any template table over the page's catalog, `Site` among them. */
  lemma DynamicConfigDeterminesPath(reg: Registry, f1: Form, f2: Form, uriEnc: UriEncoder)
    requires reg.services == Services
    requires CurrentConfig(Dynamic, f1) == CurrentConfig(Dynamic, f2)
    ensures DynamicPath(reg, f1, uriEnc) == DynamicPath(reg, f2, uriEnc)
  {
    if f1.service in Services {
      InputsAgree(Services[f1.service].params, f1, f2);
    }
    DynamicPathAgrees(reg, f1, f2, uriEnc);
  }

  /** Equal recorded inputs mean equal raw inputs for every parameter. */
  lemma InputsAgree(ps: seq<Param>, f1: Form, f2: Form)
    requires InputsOf(ps, f1.paramInputs) == InputsOf(ps, f2.paramInputs)
    ensures forall i :: 0 <= i < |ps| ==> RawInput(f1, ps[i].name) == RawInput(f2, ps[i].name)
  {
    forall i | 0 <= i < |ps| ensures RawInput(f1, ps[i].name) == RawInput(f2, ps[i].name) {
      var n := ps[i].name;
      assert n in ParamNames(ps);
      assert n in f1.paramInputs <==> n in InputsOf(ps, f1.paramInputs);
    }
  }

  // ---- the list invariant ---------------------------------------------------

  /** Some entry has URL `url` (`favorites.some(f => f.url === url)`). */
  predicate HasUrl(favs: seq<Favorite>, url: string) {
    exists i :: 0 <= i < |favs| && favs[i].url == url
  }

  predicate DistinctUrls(favs: seq<Favorite>) {
    forall i, j :: 0 <= i < j < |favs| ==> favs[i].url != favs[j].url
  }

  /** What every reachable list satisfies: at most twenty entries, no empty
      URL, no URL twice. */
  predicate Valid(favs: seq<Favorite>) {
    |favs| <= MaxFavorites
    && (forall i :: 0 <= i < |favs| ==> favs[i].url != "")
    && DistinctUrls(favs)
  }

  // ---- saving ---------------------------------------------------------------

  datatype SaveOutcome = Saved | NoBadge | Duplicate

  datatype SaveResult = SaveResult(favs: seq<Favorite>, outcome: SaveOutcome)

  /** `saveFavorite`: refused when there is no badge URL or the URL is already
      saved; otherwise the entry goes to the front and the list is cut back to
      twenty. */
  function SaveFavorite(favs: seq<Favorite>, fav: Favorite): (r: SaveResult)
    ensures r.outcome == NoBadge <==> fav.url == ""
    ensures r.outcome == Duplicate <==> fav.url != "" && HasUrl(favs, fav.url)
    ensures r.outcome != Saved ==> r.favs == favs
    ensures r.outcome == Saved ==>
      && |r.favs| >= 1 && r.favs[0] == fav
      && r.favs[1..] == favs[..if |favs| < MaxFavorites then |favs| else MaxFavorites - 1]
  {
    if fav.url == "" then SaveResult(favs, NoBadge)
    else if HasUrl(favs, fav.url) then SaveResult(favs, Duplicate)
    else
      var all := [fav] + favs;
      SaveResult(if |all| > MaxFavorites then all[..MaxFavorites] else all, Saved)
  }

  /** Saving keeps the list valid. */
  lemma SavePreservesValid(favs: seq<Favorite>, fav: Favorite)
    requires Valid(favs)
    ensures Valid(SaveFavorite(favs, fav).favs)
  {
    var r := SaveFavorite(favs, fav);
    if r.outcome == Saved {
      var rest := r.favs[1..];
      assert forall j :: 0 <= j < |rest| ==> rest[j] == favs[j];
      forall i, j | 0 <= i < j < |r.favs| ensures r.favs[i].url != r.favs[j].url {
        assert r.favs[j] == favs[j - 1];
        if i > 0 {
          assert r.favs[i] == favs[i - 1];
        }
      }
    }
  }

  /** A saved entry can be found by its URL afterwards, and the entry saved
      before it is then second. */
  lemma SavedIsFound(favs: seq<Favorite>, fav: Favorite)
    requires SaveFavorite(favs, fav).outcome == Saved
    ensures HasUrl(SaveFavorite(favs, fav).favs, fav.url)
    ensures favs != [] ==> SaveFavorite(favs, fav).favs[1] == favs[0]
  {
    assert SaveFavorite(favs, fav).favs[0].url == fav.url;
  }

  /** Saving the same badge twice in a row is refused the second time. */
  lemma SaveTwiceRefused(favs: seq<Favorite>, fav: Favorite, again: Favorite)
    requires SaveFavorite(favs, fav).outcome == Saved && again.url == fav.url
    ensures SaveFavorite(SaveFavorite(favs, fav).favs, again).outcome == Duplicate
  {
    SavedIsFound(favs, fav);
  }

  // ---- deleting and clearing ---------------------------------------------

  /** `deleteFavorite(id)`: `favorites.filter(f => f.id !== id)`. */
  function DeleteFavorite(favs: seq<Favorite>, id: int): (r: seq<Favorite>)
    ensures |r| <= |favs|
    ensures forall x :: x in r <==> x in favs && x.id != id
  {
    if favs == [] then []
    else
      var rest := DeleteFavorite(favs[1..], id);
      assert forall x :: x in favs <==> x == favs[0] || x in favs[1..];
      if favs[0].id != id then [favs[0]] + rest else rest
  }

  /** Deleting keeps the other entries in their order, and nothing with the
      deleted id remains. */
  lemma {:induction false} DeleteKeepsOrder(favs: seq<Favorite>, id: int)
    ensures IsSubsequence(DeleteFavorite(favs, id), favs)
    ensures |DeleteFavorite(favs, id)| == |favs| - CountId(favs, id)
  {
    if favs != [] {
      DeleteKeepsOrder(favs[1..], id);
      var rest := DeleteFavorite(favs[1..], id);
      if favs[0].id != id {
        assert ([favs[0]] + rest)[1..] == rest;
      } else {
        SubsequenceSkip(rest, favs);
      }
    }
  }

  /** Number of entries with id `id`. */
  function CountId(favs: seq<Favorite>, id: int): (n: nat)
    ensures n <= |favs|
  {
    if favs == [] then 0 else (if favs[0].id == id then 1 else 0) + CountId(favs[1..], id)
  }

  /** A subsequence of a valid list is valid. */
  lemma {:induction false} SubsequenceValid(r: seq<Favorite>, favs: seq<Favorite>)
    requires IsSubsequence(r, favs) && Valid(favs)
    ensures Valid(r)
    decreases |favs|
  {
    if r != [] {
      assert favs != [];
      var tail := favs[1..];
      assert Valid(tail) by {
        assert forall i :: 0 <= i < |tail| ==> tail[i] == favs[i + 1];
      }
      SubsequenceMembers(r, favs);
      if r[0] == favs[0] {
        SubsequenceValid(r[1..], tail);
        SubsequenceMembers(r[1..], tail);
        forall i | 0 <= i < |r| ensures r[i].url != "" {
          if i > 0 { assert r[i] == r[1..][i - 1]; }
        }
        forall i, j | 0 <= i < j < |r| ensures r[i].url != r[j].url {
          assert r[j] == r[1..][j - 1];
          if i == 0 {
            assert r[1..][j - 1] in r[1..];
            var k :| 0 <= k < |tail| && tail[k] == r[j];
            assert favs[0].url != favs[k + 1].url;
          } else {
            assert r[i] == r[1..][i - 1];
          }
        }
      } else {
        SubsequenceValid(r, tail);
      }
    }
  }

  /** Deleting keeps the list valid. */
  lemma DeletePreservesValid(favs: seq<Favorite>, id: int)
    requires Valid(favs)
    ensures Valid(DeleteFavorite(favs, id))
  {
    DeleteKeepsOrder(favs, id);
    SubsequenceValid(DeleteFavorite(favs, id), favs);
  }

  datatype ClearOutcome = Cleared | NothingToClear | Cancelled

  datatype ClearResult = ClearResult(favs: seq<Favorite>, outcome: ClearOutcome)

  /** `clearAllFavorites`: refused on an empty list; otherwise the list is
      emptied exactly when the user confirms. */
  function ClearAllFavorites(favs: seq<Favorite>, confirmed: bool): (r: ClearResult)
    ensures r.outcome == NothingToClear <==> favs == []
    ensures r.outcome == Cleared <==> favs != [] && confirmed
    ensures r.favs == [] <==> favs == [] || confirmed
    ensures r.outcome != Cleared ==> r.favs == favs
  {
    if favs == [] then ClearResult(favs, NothingToClear)
    else if confirmed then ClearResult([], Cleared)
    else ClearResult(favs, Cancelled)
  }

  /** Clearing keeps the list valid. */
  lemma ClearPreservesValid(favs: seq<Favorite>, confirmed: bool)
    requires Valid(favs)
    ensures Valid(ClearAllFavorites(favs, confirmed).favs)
  {
  }
}

=== FILE: fields.dfy ===
/** The editor's input fields, read as plain values instead of DOM elements. Both
    builders read the same style, logo and colour fields, so one record holds
    them all. A missing element reads as the empty string. */
module Fields {
  import opened Wrappers
  import opened Text
  import opened Catalog

  /** `currentBadgeType`: anything but `static` builds a dynamic badge. */
  datatype BadgeType = Static | Dynamic

  datatype Form = Form(
    labelText: string,
    messageText: string,
    labelColor: string,
    messageColor: string,
    style: string,
    logo: string,
    logoColor: string,
    cacheEnabled: bool,
    cacheSeconds: string,
    link: string,
    service: string,
    // the raw value of the `param-<name>` input of each generated parameter field
    paramInputs: map<ParamName, string>)

  /** The raw text of a parameter's input, or "" when there is no such input. */
  function RawInput(f: Form, n: ParamName): (v: string)
    ensures n in f.paramInputs ==> v == f.paramInputs[n]
    ensures n !in f.paramInputs ==> v == ""
  {
    if n in f.paramInputs then f.paramInputs[n] else ""
  }

  /** The style select, `flat` when nothing is selected (not trimmed). */
  function StyleOf(f: Form): string { OrElse(f.style, "flat") }
  /** The trimmed logo slug. */
  function LogoOf(f: Form): string { Trim(f.logo) }
  /** The trimmed logo colour. */
  function LogoColorOf(f: Form): string { Trim(f.logoColor) }

  /** The uploaded logo (a data URL) is used when it is set and non-empty, which
      is JavaScript's truthiness of `this.customLogo`. */
  predicate HasCustomLogo(customLogo: Option<string>) {
    customLogo.Some? && customLogo.value != []
  }
}

=== FILE: generator.dfy ===
/** The remaining pure pieces of the generator: the `generateBadge` dispatch
    (script.js:197-203), the Markdown and HTML exports (script.js:1410-1434),
    the SVG download URL (script.js:1442), the logo upload checks
    (script.js:1803-1813), the icon search (script.js:1235-1242) and the
    favorite entry `saveFavorite` builds from the current form
    (script.js:1543-1574). */
module Generator {
  import opened Seqs
  import opened Wrappers
  import opened Text
  import opened Query
  import opened PathTemplates
  import opened Fields
  import opened StaticBadge
  import opened DynamicBadge
  import Favorites

  // ---- dispatch -------------------------------------------------------------

  /** `generateBadge`: the current tab decides which builder runs. The static
      tab yields the static URL, which extends the badge path; the dynamic tab
      yields the dynamic URL, which extends the dynamic path when there is one
      and is empty otherwise. Either way the URL is empty or lies under
      `https://img.shields.io/`. */
  function GenerateBadge(t: BadgeType, f: Form, customLogo: Option<string>, enc: Encoder,
                         uriEnc: UriEncoder): (url: string)
    ensures url == "" || StartsWith(url, DynamicBase)
    ensures t == Static ==>
      url == StaticUrl(f, customLogo, enc) && StartsWith(url, StaticPath(f)) && StartsWith(url, BadgeBase)
    ensures t == Dynamic ==> url == GenerateDynamic(Site, f, customLogo, enc, uriEnc)
    ensures t == Dynamic ==> (url == "" <==> DynamicPath(Site, f, uriEnc).None?)
    ensures t == Dynamic && DynamicPath(Site, f, uriEnc).Some? ==>
      StartsWith(url, DynamicPath(Site, f, uriEnc).value)
  {
    match t
    case Static =>
      var url := StaticUrl(f, customLogo, enc);
      StartsWithTrans(url, BadgeBase, DynamicBase);
      url
    case Dynamic => GenerateDynamic(Site, f, customLogo, enc, uriEnc)
  }

  // ---- exports ---------------------------------------------------------------

  /** The Markdown image of a badge, `![Badge](url)`. */
  function MarkdownImage(url: string): string {
    "![Badge](" + url + ")"
  }

  /** `copyMarkdown`: the image, wrapped in a Markdown link to the trimmed link
      exactly when that is non-empty. */
  function Markdown(url: string, link: string): (md: string)
    ensures Trim(link) == "" ==> md == MarkdownImage(url)
    ensures Trim(link) != "" ==>
      && |md| == |MarkdownImage(url)| + |Trim(link)| + 4
      && md[0] == '['
      && OccursAt(MarkdownImage(url), md, 1)
      && md[1 + |MarkdownImage(url)|..3 + |MarkdownImage(url)|] == "]("
      && OccursAt(Trim(link), md, |md| - |Trim(link)| - 1)
      && md[|md| - 1] == ')'
  {
    var target := Trim(link);
    if target == "" then MarkdownImage(url)
    else
      var md := "[" + MarkdownImage(url) + "](" + target + ")";
      assert md[1..1 + |MarkdownImage(url)|] == MarkdownImage(url);
      assert md[1 + |MarkdownImage(url)|..3 + |MarkdownImage(url)|] == "](";
      assert md[|md| - |target| - 1..|md| - 1] == target;
      md
  }

  /** Only the linked form starts with `[`; the bare image starts with `!`. */
  lemma MarkdownLinkedIff(url: string, link: string)
    ensures Markdown(url, link)[0] == '[' <==> Trim(link) != ""
  {
    if Trim(link) == "" {
      assert MarkdownImage(url)[0] == '!';
    }
  }

  /** The HTML image of a badge. */
  function HtmlImage(url: string): string {
    "<img src=\"" + url + "\" alt=\"Badge\">"
  }

  /** `copyHtml`: the image, inside an anchor to the trimmed link exactly when
      that is non-empty. */
  function Html(url: string, link: string): (html: string)
    ensures Trim(link) == "" ==> html == HtmlImage(url)
    ensures Trim(link) != "" ==>
      && |html| == |"<a href=\"" + Trim(link) + "\">"| + |HtmlImage(url)| + 4
      && StartsWith(html, "<a href=\"" + Trim(link) + "\">")
      && OccursAt(HtmlImage(url), html, |"<a href=\"" + Trim(link) + "\">"|)
      && html[|html| - 4..] == "</a>"
  {
    var target := Trim(link);
    if target == "" then HtmlImage(url)
    else
      var open := "<a href=\"" + target + "\">";
      var html := open + HtmlImage(url) + "</a>";
      assert html[..|open|] == open;
      assert html[|open|..|open| + |HtmlImage(url)|] == HtmlImage(url);
      assert html[|html| - 4..] == "</a>";
      html
  }

  /** Only the linked form is an anchor: its second character is `a`, while
      the bare image starts `<i`. */
  lemma HtmlLinkedIff(url: string, link: string)
    ensures Html(url, link)[1] == 'a' <==> Trim(link) != ""
  {
    if Trim(link) == "" {
      assert HtmlImage(url)[1] == 'i';
    } else {
      var open := "<a href=\"" + Trim(link) + "\">";
      assert open[1] == 'a';
      assert Html(url, link)[1] == open[1];
    }
  }

  /** `downloadSvg`'s request URL: the badge URL with `format=svg` joined by
      `&` if it already has a query and by `?` if not. The result always has
      a query. */
  function SvgDownloadUrl(url: string): (r: string)
    ensures StartsWith(r, url) && |r| == |url| + 11
    ensures r[|url|] == (if '?' in url then '&' else '?')
    ensures r[|url| + 1..] == "format=svg"
    ensures '?' in r
  {
    var sep := Joiner(url);
    var r := url + sep + "format=svg";
    assert r[..|url|] == url;
    assert r[|url| + 1..] == "format=svg";
    assert sep == "?" ==> r[|url|] == '?';
    r
  }

  // ---- logo upload -----------------------------------------------------------

  /** The upload size limit, 2 MiB. */
  const MaxUploadBytes: int := 2 * 1024 * 1024

  datatype UploadCheck = Accepted | TooLarge | NotImage

  /** The checks `handleLogoUpload` makes before reading the file: the size
      first (a file of exactly 2 MiB passes), then the MIME type prefix. */
  function CheckUpload(size: int, mimeType: string): (r: UploadCheck)
    ensures r == TooLarge <==> size > MaxUploadBytes
    ensures r == NotImage <==> size <= MaxUploadBytes && !StartsWith(mimeType, "image/")
    ensures r == Accepted <==> size <= MaxUploadBytes && StartsWith(mimeType, "image/")
  {
    if size > MaxUploadBytes then TooLarge
    else if !StartsWith(mimeType, "image/") then NotImage
    else Accepted
  }

  /** A smaller file of the same type is judged no worse: an accepted upload
      stays accepted, and a type refusal stays a type refusal. */
  lemma UploadMonotone(size: int, smaller: int, mimeType: string)
    requires smaller <= size
    ensures CheckUpload(size, mimeType) == Accepted ==> CheckUpload(smaller, mimeType) == Accepted
    ensures CheckUpload(size, mimeType) == NotImage ==> CheckUpload(smaller, mimeType) == NotImage
  {
  }

  // ---- icon search -----------------------------------------------------------

  datatype Icon = Icon(name: string, display: string)

  /** An icon matches a search term when its name or display name contains the
      term, ignoring ASCII case. */
  predicate Matches(icon: Icon, term: string) {
    Includes(Lower(icon.name), Lower(term)) || Includes(Lower(icon.display), Lower(term))
  }

  /** `icons.filter(...)` with `Matches`. */
  function FilterMatching(icons: seq<Icon>, term: string): (r: seq<Icon>)
    ensures |r| <= |icons|
    ensures forall x :: x in r <==> x in icons && Matches(x, term)
  {
    if icons == [] then []
    else
      var rest := FilterMatching(icons[1..], term);
      assert forall x :: x in icons <==> x == icons[0] || x in icons[1..];
      if Matches(icons[0], term) then [icons[0]] + rest else rest
  }

  /** Number of icons that match `term`. */
  function CountMatching(icons: seq<Icon>, term: string): (n: nat)
    ensures n <= |icons|
  {
    if icons == [] then 0 else (if Matches(icons[0], term) then 1 else 0) + CountMatching(icons[1..], term)
  }

  /** `filter` keeps the matching icons in their order, repeats included:
      the result is a subsequence as long as the number of matching icons,
      and every icon in it matches. */
  lemma {:induction false} FilterKeepsOrder(icons: seq<Icon>, term: string)
    ensures IsSubsequence(FilterMatching(icons, term), icons)
    ensures |FilterMatching(icons, term)| == CountMatching(icons, term)
  {
    if icons != [] {
      FilterKeepsOrder(icons[1..], term);
      var rest := FilterMatching(icons[1..], term);
      if Matches(icons[0], term) {
        assert ([icons[0]] + rest)[1..] == rest;
      } else {
        SubsequenceSkip(rest, icons);
      }
    }
  }

  /** `renderIcons`: an empty search shows every icon of the category, which
      is what filtering with the empty term gives, so the list shown is the
      filtered list for every term. */
  function SearchIcons(icons: seq<Icon>, term: string): (r: seq<Icon>)
    ensures term == "" ==> r == icons
    ensures r == FilterMatching(icons, term)
    ensures forall x :: x in r <==> x in icons && Matches(x, term)
  {
    if term == "" then
      EmptyTermKeepsAll(icons);
      icons
    else FilterMatching(icons, term)
  }

  /** The empty-search shortcut changes nothing: the empty term matches every
      icon, so filtering with it keeps the whole list. */
  lemma {:induction false} EmptyTermKeepsAll(icons: seq<Icon>)
    ensures FilterMatching(icons, "") == icons
  {
    if icons != [] {
      assert OccursAt(Lower(""), Lower(icons[0].name), 0);
      EmptyTermKeepsAll(icons[1..]);
    }
  }

  /** Lower-casing twice is lower-casing once. */
  lemma LowerIdempotent(s: string)
    ensures Lower(Lower(s)) == Lower(s)
  {
  }

  /** The search ignores the case of the term. */
  lemma MatchIgnoresCase(icon: Icon, term: string)
    ensures Matches(icon, term) <==> Matches(icon, Lower(term))
  {
    LowerIdempotent(term);
  }

  // ---- saving the current badge ----------------------------------------------

  /** `saveFavorite` on the current form: the entry carries the generated
      name, the tab, the URL `generateBadge` gives for the form and the
      recorded config; the id and creation time come from the clock and are
      passed in. A static form always has a URL, so "Generate a badge first!"
      only happens on the dynamic tab when the generator gives up. */
  function SaveCurrent(favs: seq<Favorites.Favorite>, id: int, created: string, t: BadgeType, f: Form,
                       customLogo: Option<string>, enc: Encoder, uriEnc: UriEncoder): (r: Favorites.SaveResult)
    ensures r.outcome == Favorites.NoBadge <==> t == Dynamic && DynamicPath(Site, f, uriEnc).None?
    ensures r.outcome == Favorites.Duplicate <==>
      r.outcome != Favorites.NoBadge && Favorites.HasUrl(favs, GenerateBadge(t, f, customLogo, enc, uriEnc))
    ensures r.outcome != Favorites.Saved ==> r.favs == favs
    ensures r.outcome == Favorites.Saved ==>
      && |r.favs| >= 1
      && r.favs[0].id == id && r.favs[0].created == created
      && r.favs[0].name == Favorites.FavoriteName(t, f)
      && r.favs[0].badgeType == t
      && r.favs[0].url == GenerateBadge(t, f, customLogo, enc, uriEnc)
      && r.favs[0].config == Favorites.CurrentConfig(t, f)
    ensures Favorites.Valid(favs) ==> Favorites.Valid(r.favs)
  {
    var url := GenerateBadge(t, f, customLogo, enc, uriEnc);
    var fav := Favorites.Favorite(id, Favorites.FavoriteName(t, f), t, url, Favorites.CurrentConfig(t, f), created);
    if Favorites.Valid(favs) then
      Favorites.SavePreservesValid(favs, fav);
      Favorites.SaveFavorite(favs, fav)
    else Favorites.SaveFavorite(favs, fav)
  }
}

=== FILE: path_text.dfy ===
/** Escaping of label and message text for the `{label}-{message}-{color}` path
    of a static badge (`encodeText`, script.js:1338-1343). The source performs three
    global replacements in a fixed order; the model states that pipeline literally
    (`EncodeText`) and proves it equal to a character-by-character reference
    (`Escape`), from which the shape properties follow. The escaping is not
    injective, so no decoder is claimed. */
module PathText {
  import opened Text

  /** `s.replace(/c/g, by)` for a one-character pattern. */
  function ReplaceAll(s: string, c: char, with: string): (r: string)
    ensures c !in with ==> c !in r
  {
    if s == [] then []
    else (if s[0] == c then with else [s[0]]) + ReplaceAll(s[1..], c, with)
  }

  /** `encodeText`: hyphens doubled, then underscores doubled, then spaces turned
      into underscores. */
  function EncodeText(s: string): (r: string)
    ensures ' ' !in r
  {
    ReplaceAll(ReplaceAll(ReplaceAll(s, '-', "--"), '_', "__"), ' ', "_")
  }

  /** The characters the escaping rewrites. */
  predicate IsSpecial(c: char) {
    c == '-' || c == '_' || c == ' '
  }

  /** Reference escaping of one character. */
  function EscapeChar(c: char): string {
    if c == '-' then "--"
    else if c == '_' then "__"
    else if c == ' ' then "_"
    else [c]
  }

  /** Reference escaping: each character escaped on its own, in order. */
  function Escape(s: string): string {
    if s == [] then [] else EscapeChar(s[0]) + Escape(s[1..])
  }

  /** The characters of `s` that the escaping leaves alone, in order. */
  function Ordinary(s: string): (r: string)
    ensures forall i :: 0 <= i < |r| ==> !IsSpecial(r[i])
  {
    if s == [] then []
    else (if IsSpecial(s[0]) then [] else [s[0]]) + Ordinary(s[1..])
  }

  lemma {:induction false} ReplaceAllAppend(a: string, b: string, c: char, with: string)
    ensures ReplaceAll(a + b, c, with) == ReplaceAll(a, c, with) + ReplaceAll(b, c, with)
  {
    if a == [] {
      assert a + b == b;
    } else {
      assert (a + b)[1..] == a[1..] + b;
      ReplaceAllAppend(a[1..], b, c, with);
    }
  }

  lemma {:induction false} EscapeAppend(a: string, b: string)
    ensures Escape(a + b) == Escape(a) + Escape(b)
  {
    if a == [] {
      assert a + b == b;
    } else {
      assert (a + b)[1..] == a[1..] + b;
      EscapeAppend(a[1..], b);
    }
  }

  lemma {:induction false} OrdinaryAppend(a: string, b: string)
    ensures Ordinary(a + b) == Ordinary(a) + Ordinary(b)
  {
    if a == [] {
      assert a + b == b;
    } else {
      assert (a + b)[1..] == a[1..] + b;
      OrdinaryAppend(a[1..], b);
    }
  }

  /** Replacing a character that does not occur changes nothing. */
  lemma {:induction false} ReplaceAllAbsent(s: string, c: char, with: string)
    requires c !in s
    ensures ReplaceAll(s, c, with) == s
  {
    if s != [] {
      ReplaceAllAbsent(s[1..], c, with);
      assert s == [s[0]] + s[1..];
    }
  }

  lemma ReplaceAllSingle(x: char, c: char, with: string)
    ensures ReplaceAll([x], c, with) == if x == c then with else [x]
  {
    assert [x][1..] == [];
    var h := if x == c then with else [x];
    assert h + [] == h;
  }

  /** The three replacements applied to a single character give `EscapeChar`. */
  lemma EncodeTextChar(x: char)
    ensures EncodeText([x]) == EscapeChar(x)
  {
    ReplaceAllSingle(x, '-', "--");
    var h1 := ReplaceAll([x], '-', "--");
    var h2 := ReplaceAll(h1, '_', "__");
    if x == '-' {
      ReplaceAllAbsent(h1, '_', "__");
      ReplaceAllAbsent(h2, ' ', "_");
    } else {
      ReplaceAllSingle(x, '_', "__");
      if x == '_' {
        ReplaceAllAbsent(h2, ' ', "_");
      } else {
        ReplaceAllSingle(x, ' ', "_");
      }
    }
  }

  /** The three ordered global replacements of the source escape every character
      independently, exactly as `EscapeChar` says. In particular hyphen doubling
      and underscore doubling never see each other's output, and the underscore a
      space becomes is not doubled. */
  lemma {:induction false} EncodeTextIsCharwise(s: string)
    ensures EncodeText(s) == Escape(s)
  {
    if s != [] {
      var head, tail := [s[0]], s[1..];
      assert s == head + tail;
      EncodeTextSplit(head, tail);
      EncodeTextChar(s[0]);
      EncodeTextIsCharwise(tail);
    }
  }

  /** Each of the three replacement passes distributes over concatenation. */
  lemma EncodeTextSplit(a: string, b: string)
    ensures EncodeText(a + b) == EncodeText(a) + EncodeText(b)
  {
    ReplaceAllAppend(a, b, '-', "--");
    var a1, b1 := ReplaceAll(a, '-', "--"), ReplaceAll(b, '-', "--");
    ReplaceAllAppend(a1, b1, '_', "__");
    var a2, b2 := ReplaceAll(a1, '_', "__"), ReplaceAll(b1, '_', "__");
    ReplaceAllAppend(a2, b2, ' ', "_");
  }

  lemma {:induction false} EscapeLength(s: string)
    ensures |Escape(s)| == |s| + Count(s, '-') + Count(s, '_')
  {
    if s != [] {
      EscapeLength(s[1..]);
    }
  }

  /** The output grows by one character per hyphen and per underscore. */
  lemma EncodeTextLength(s: string)
    ensures |EncodeText(s)| == |s| + Count(s, '-') + Count(s, '_')
  {
    EncodeTextIsCharwise(s);
    EscapeLength(s);
  }

  lemma {:induction false} EscapeKeepsOrdinary(s: string)
    ensures Ordinary(Escape(s)) == Ordinary(s)
  {
    if s != [] {
      OrdinaryAppend(EscapeChar(s[0]), Escape(s[1..]));
      EscapeKeepsOrdinary(s[1..]);
    }
  }

  /** Every character other than hyphen, underscore and space passes through
      unchanged and in its original order. */
  lemma EncodeTextKeepsOrdinary(s: string)
    ensures Ordinary(EncodeText(s)) == Ordinary(s)
  {
    EncodeTextIsCharwise(s);
    EscapeKeepsOrdinary(s);
  }

  /** Text with nothing to escape is its own encoding (for instance the defaults
      "label" and "message"). */
  lemma {:induction false} EncodeTextPlain(s: string)
    requires forall i :: 0 <= i < |s| ==> !IsSpecial(s[i])
    ensures EncodeText(s) == s
  {
    EncodeTextIsCharwise(s);
    EscapePlain(s);
  }

  lemma {:induction false} EscapePlain(s: string)
    requires forall i :: 0 <= i < |s| ==> !IsSpecial(s[i])
    ensures Escape(s) == s
  {
    if s != [] {
      EscapePlain(s[1..]);
      assert s == [s[0]] + s[1..];
    }
  }

  /** The worked example: "a-b c_d" becomes "a--b_c__d". */
  lemma EncodeTextExample()
    ensures EncodeText("a-b c_d") == "a--b_c__d"
  {
    EncodeShape('a', 'b', 'c', 'd');
  }

  /** Any four ordinary characters joined by a hyphen, a space and an underscore. */
  lemma EncodeShape(a: char, b: char, c: char, d: char)
    requires !IsSpecial(a) && !IsSpecial(b) && !IsSpecial(c) && !IsSpecial(d)
    ensures EncodeText([a, '-', b, ' ', c, '_', d]) == [a, '-', '-', b, '_', c, '_', '_', d]
  {
    var s := [a, '-', b, ' ', c, '_', d];
    EncodeTextIsCharwise(s);
    assert s == [a] + [ '-', b, ' ', c, '_', d];
    var e := Escape(s);
    assert s[1..] == ['-', b, ' ', c, '_', d];
    assert s[1..][1..] == [b, ' ', c, '_', d];
    assert s[1..][1..][1..] == [' ', c, '_', d];
    assert s[1..][1..][1..][1..] == [c, '_', d];
    assert s[1..][1..][1..][1..][1..] == ['_', d];
    assert s[1..][1..][1..][1..][1..][1..] == [d];
    assert [d][1..] == [];
    assert Escape([d]) == [d];
    assert Escape(['_', d]) == ['_', '_', d];
    assert Escape([c, '_', d]) == [c, '_', '_', d];
    assert Escape([' ', c, '_', d]) == ['_', c, '_', '_', d];
    assert Escape([b, ' ', c, '_', d]) == [b, '_', c, '_', '_', d];
    assert Escape(['-', b, ' ', c, '_', d]) == ['-', '-', b, '_', c, '_', '_', d];
  }

  /** The escaping is not injective: one underscore and two spaces collide. */
  lemma EncodeTextNotInjective()
    ensures "_" != "  " && EncodeText("_") == EncodeText("  ")
  {
    EncodeTextChar('_');
    EncodeTextChar(' ');
    assert "  " == " " + " ";
    EncodeTextSplit(" ", " ");
  }

  // ---- hyphen runs --------------------------------------------------------

  /** `t[i..j]` is a maximal run of hyphens. */
  ghost predicate MaximalDashRun(t: string, i: int, j: int) {
    && 0 <= i < j <= |t|
    && (forall k :: i <= k < j ==> t[k] == '-')
    && (i == 0 || t[i - 1] != '-')
    && (j == |t| || t[j] != '-')
  }

  /** Scanning from the left, every hyphen comes as the first of a `--` pair. */
  ghost predicate DashesPaired(t: string)
    decreases |t|
  {
    if t == [] then true
    else if t[0] == '-' then |t| >= 2 && t[1] == '-' && DashesPaired(t[2..])
    else DashesPaired(t[1..])
  }

  lemma {:induction false} DashesPairedAppend(a: string, b: string)
    requires DashesPaired(a) && DashesPaired(b)
    ensures DashesPaired(a + b)
    decreases |a|
  {
    if a == [] {
      assert a + b == b;
    } else if a[0] == '-' {
      assert (a + b)[2..] == a[2..] + b;
      DashesPairedAppend(a[2..], b);
    } else {
      assert (a + b)[1..] == a[1..] + b;
      DashesPairedAppend(a[1..], b);
    }
  }

  lemma {:induction false} EscapeDashesPaired(s: string)
    ensures DashesPaired(Escape(s))
  {
    if s != [] {
      var e := EscapeChar(s[0]);
      assert DashesPaired(e) by {
        if s[0] == '-' {
          assert e[2..] == [];
        } else {
          assert e[1..] == [] || e[1..] == "_";
          assert e[1..] == [] || DashesPaired(e[1..][1..]);
        }
      }
      EscapeDashesPaired(s[1..]);
      DashesPairedAppend(e, Escape(s[1..]));
    }
  }

  /** Pairing read from the left forces every maximal run to have even length. */
  lemma {:induction false} PairedRunsEven(t: string)
    requires DashesPaired(t)
    ensures forall i, j :: MaximalDashRun(t, i, j) ==> (j - i) % 2 == 0
    decreases |t|
  {
    if t != [] {
      var d := if t[0] == '-' then 2 else 1;
      var u := t[d..];
      PairedRunsEven(u);
      forall i, j | MaximalDashRun(t, i, j) ensures (j - i) % 2 == 0 {
        if t[0] == '-' {
          if i == 0 {
            if j > 2 {
              assert MaximalDashRun(u, 0, j - 2);
            }
          } else {
            assert i >= 2;
            assert MaximalDashRun(u, i - 2, j - 2);
          }
        } else {
          assert i >= 1;
          assert MaximalDashRun(u, i - 1, j - 1);
        }
      }
    }
  }

  /** Every maximal run of hyphens in one encoded text has even length. This
      is a property of each escaped piece on its own: the colour is not
      escaped, and runs can merge where two pieces meet a separator. */
  lemma EncodeTextDashRunsEven(s: string)
    ensures forall i, j :: MaximalDashRun(EncodeText(s), i, j) ==> (j - i) % 2 == 0
  {
    EncodeTextIsCharwise(s);
    EscapeDashesPaired(s);
    PairedRunsEven(Escape(s));
  }
}

=== FILE: query.dfy ===
/** Query strings as the badge generator builds them with `URLSearchParams`:
    name/value pairs in insertion order, serialized as in section 5.2 of the
    WHATWG URL Standard (application/x-www-form-urlencoded serializing). The
    byte-level percent-encoding is a parameter: the model covers the structure
    around it, not the encoding itself. */
module Query {
  import opened Wrappers

  /** A percent-encoding function, left abstract. */
  type Encoder = string -> string

  /** The parameter names the generator ever appends. */
  datatype ParamKey = Style | LabelColor | Logo | LogoSvg | LogoColor | CacheSeconds | Color

  /** The name as it appears in the URL. */
  function KeyName(k: ParamKey): string {
    match k
    case Style => "style"
    case LabelColor => "labelColor"
    case Logo => "logo"
    case LogoSvg => "logoSvg"
    case LogoColor => "logoColor"
    case CacheSeconds => "cacheSeconds"
    case Color => "color"
  }

  datatype QueryParam = QueryParam(key: ParamKey, value: string)

  /** `name=value` with both sides encoded. */
  function SerializePair(p: QueryParam, enc: Encoder): (r: string)
    ensures '=' in r
  {
    var name := enc(KeyName(p.key));
    assert (name + "=" + enc(p.value))[|name|] == '=';
    name + "=" + enc(p.value)
  }

  /** `params.toString()`: the encoded pairs joined by `&`. It is empty exactly
      when no pair was appended. */
  function Serialize(ps: seq<QueryParam>, enc: Encoder): (r: string)
    ensures r == [] <==> ps == []
  {
    if ps == [] then []
    else if |ps| == 1 then SerializePair(ps[0], enc)
    else SerializePair(ps[0], enc) + "&" + Serialize(ps[1..], enc)
  }

  /** Serializing two non-empty lists one after the other is joining their
      serializations with `&`. */
  lemma {:induction false} SerializeAppend(a: seq<QueryParam>, b: seq<QueryParam>, enc: Encoder)
    requires a != [] && b != []
    ensures Serialize(a + b, enc) == Serialize(a, enc) + "&" + Serialize(b, enc)
  {
    if |a| == 1 {
      assert (a + b)[1..] == b;
    } else {
      assert (a + b)[1..] == a[1..] + b;
      SerializeAppend(a[1..], b, enc);
    }
  }

  /** The separator that joins more parameters onto `url`: `&` once `url`
      already holds a `?`, `?` otherwise. */
  function Joiner(url: string): (j: string)
    ensures j == "&" || j == "?"
    ensures j == "&" <==> '?' in url
  {
    if '?' in url then "&" else "?"
  }

  /** `url += sep + query` when the serialized query is non-empty. */
  function AppendQuery(url: string, sep: string, query: string): (r: string)
    requires |sep| == 1
    ensures |r| >= |url| && r[..|url|] == url
    ensures |r| > |url| <==> query != []
    ensures |r| > |url| ==> r[|url|] == sep[0] && r[|url| + 1..] == query
  {
    if query != [] then url + sep + query else url
  }

  /** The value of the first parameter called `key`, if any. */
  function Lookup(ps: seq<QueryParam>, key: ParamKey): (v: Option<string>)
    ensures v.Some? <==> exists i :: 0 <= i < |ps| && ps[i].key == key
    ensures v.Some? ==> exists i :: 0 <= i < |ps| && ps[i] == QueryParam(key, v.value)
  {
    if ps == [] then None
    else if ps[0].key == key then Some(ps[0].value)
    else
      var v := Lookup(ps[1..], key);
      assert forall i :: 1 <= i < |ps| ==> ps[i] == ps[1..][i - 1];
      v
  }

  /** The parameter names of `ps`, in order. */
  function Keys(ps: seq<QueryParam>): (ks: seq<ParamKey>)
    ensures |ks| == |ps|
    ensures forall i :: 0 <= i < |ps| ==> ks[i] == ps[i].key
  {
    if ps == [] then [] else [ps[0].key] + Keys(ps[1..])
  }

  // ---- conditional appends ------------------------------------------------

  /** One `if (cond) params.append(name, value)` statement of the source. */
  datatype Step = Step(cond: bool, key: ParamKey, value: string)

  /** The pair one step appends, if its condition holds. */
  function AppendIf(step: Step): (ps: seq<QueryParam>)
    ensures |ps| <= 1
  {
    if step.cond then [QueryParam(step.key, step.value)] else []
  }

  /** The parameters a sequence of conditional appends produces. */
  function Build(steps: seq<Step>): (ps: seq<QueryParam>)
    ensures |ps| <= |steps|
  {
    if steps == [] then []
    else AppendIf(steps[0]) + Build(steps[1..])
  }

  /** The keys the steps would append, in order. */
  function StepKeys(steps: seq<Step>): (ks: seq<ParamKey>)
    ensures |ks| == |steps|
    ensures forall i :: 0 <= i < |steps| ==> ks[i] == steps[i].key
  {
    seq(|steps|, i requires 0 <= i < |steps| => steps[i].key)
  }

  /** No key occurs twice. */
  predicate DistinctKeys(ks: seq<ParamKey>) {
    ks == [] || (ks[0] !in ks[1..] && DistinctKeys(ks[1..]))
  }

  /** `ks` is `order` with some entries left out: the keys of `ks` appear in
      the order `order` gives them. */
  predicate Sublist(ks: seq<ParamKey>, order: seq<ParamKey>)
    decreases |order|
  {
    if ks == [] then true
    else if order == [] then false
    else if ks[0] == order[0] then Sublist(ks[1..], order[1..])
    else Sublist(ks, order[1..])
  }

  /** Every key of a sublist occurs in the full list. */
  lemma {:induction false} SublistMembers(ks: seq<ParamKey>, order: seq<ParamKey>)
    requires Sublist(ks, order)
    ensures forall k :: k in ks ==> k in order
    decreases |order|
  {
    if ks != [] && order != [] {
      if ks[0] == order[0] {
        SublistMembers(ks[1..], order[1..]);
        assert forall k :: k in ks ==> k == ks[0] || k in ks[1..];
      } else {
        SublistMembers(ks, order[1..]);
      }
    }
  }

  /** Leaving entries out of a list without repeats gives a list without
      repeats. */
  lemma {:induction false} SublistDistinct(ks: seq<ParamKey>, order: seq<ParamKey>)
    requires Sublist(ks, order) && DistinctKeys(order)
    ensures DistinctKeys(ks)
    decreases |order|
  {
    if ks != [] && order != [] {
      if ks[0] == order[0] {
        SublistDistinct(ks[1..], order[1..]);
        SublistMembers(ks[1..], order[1..]);
      } else {
        SublistDistinct(ks, order[1..]);
      }
    }
  }

  lemma {:induction false} SublistRefl(ks: seq<ParamKey>)
    ensures Sublist(ks, ks)
  {
    if ks != [] {
      SublistRefl(ks[1..]);
    }
  }

  lemma {:induction false} SublistTrans(a: seq<ParamKey>, b: seq<ParamKey>, c: seq<ParamKey>)
    requires Sublist(a, b) && Sublist(b, c)
    ensures Sublist(a, c)
    decreases |c|
  {
    if a != [] && c != [] {
      if b[0] == c[0] {
        if a[0] == b[0] {
          SublistTrans(a[1..], b[1..], c[1..]);
        } else {
          SublistTrans(a, b[1..], c[1..]);
        }
      } else {
        SublistTrans(a, b, c[1..]);
        if a[0] == c[0] {
          SublistCons(a, c[1..]);
        }
      }
    }
  }

  /** The appended parameters keep the order of the statements that append
      them. */
  lemma {:induction false} BuildKeepsOrder(steps: seq<Step>)
    ensures Sublist(Keys(Build(steps)), StepKeys(steps))
  {
    if steps != [] {
      BuildKeepsOrder(steps[1..]);
      var rest := Build(steps[1..]);
      assert StepKeys(steps) == [steps[0].key] + StepKeys(steps[1..]);
      if steps[0].cond {
        assert Build(steps) == [QueryParam(steps[0].key, steps[0].value)] + rest;
        assert Keys(Build(steps))[1..] == Keys(rest);
      } else {
        assert Build(steps) == rest;
        SublistSkip(Keys(rest), StepKeys(steps[1..]), steps[0].key);
      }
    }
  }

  /** Putting one more entry in front of the full list keeps a sublist one. */
  lemma {:induction false} SublistSkip(ks: seq<ParamKey>, order: seq<ParamKey>, k: ParamKey)
    requires Sublist(ks, order)
    ensures Sublist(ks, [k] + order)
    decreases |order| + 1, 0
  {
    assert ([k] + order)[1..] == order;
    if ks != [] && ks[0] == k {
      SublistCons(ks, order);
    }
  }

  /** A non-empty sublist minus its head is still a sublist. */
  lemma {:induction false} SublistCons(ks: seq<ParamKey>, order: seq<ParamKey>)
    requires ks != [] && Sublist(ks, order)
    ensures Sublist(ks[1..], order)
    decreases |order|, 1
  {
    if ks[0] != order[0] {
      SublistCons(ks, order[1..]);
      SublistSkip(ks[1..], order[1..], order[0]);
      assert [order[0]] + order[1..] == order;
    } else if ks[1..] != [] {
      SublistSkip(ks[1..], order[1..], order[0]);
      assert [order[0]] + order[1..] == order;
    }
  }

  /** Nothing is appended exactly when no step's condition holds. */
  lemma {:induction false} BuildEmpty(steps: seq<Step>)
    ensures Build(steps) == [] <==> forall k :: 0 <= k < |steps| ==> !steps[k].cond
  {
    if steps != [] {
      BuildEmpty(steps[1..]);
      assert forall k :: 1 <= k < |steps| ==> steps[k] == steps[1..][k - 1];
    }
  }

  /** A key no step uses never shows up among the parameters. */
  lemma {:induction false} BuildUnnamed(steps: seq<Step>, key: ParamKey)
    requires key !in StepKeys(steps)
    ensures forall i :: 0 <= i < |Build(steps)| ==> Build(steps)[i].key != key
  {
    if steps != [] {
      assert StepKeys(steps) == [steps[0].key] + StepKeys(steps[1..]);
      BuildUnnamed(steps[1..], key);
    }
  }

  /** With distinct keys, each step's parameter is present, with the step's
      value, exactly when the step's condition holds. */
  lemma {:induction false} LookupBuild(steps: seq<Step>, k: nat)
    requires k < |steps| && DistinctKeys(StepKeys(steps))
    ensures Lookup(Build(steps), steps[k].key)
      == if steps[k].cond then Some(steps[k].value) else None
  {
    var head := AppendIf(steps[0]);
    var rest := Build(steps[1..]);
    assert Build(steps) == head + rest;
    assert StepKeys(steps) == [steps[0].key] + StepKeys(steps[1..]);
    if k == 0 {
      if steps[0].cond {
        assert (head + rest)[0] == QueryParam(steps[0].key, steps[0].value);
      } else {
        assert head + rest == rest;
        BuildUnnamed(steps[1..], steps[0].key);
      }
    } else {
      LookupBuild(steps[1..], k - 1);
      assert steps[1..][k - 1] == steps[k];
      if steps[0].cond {
        assert (head + rest)[1..] == rest;
        assert steps[k].key != steps[0].key by {
          assert StepKeys(steps)[k] == steps[k].key;
          assert StepKeys(steps)[k] in StepKeys(steps)[1..];
        }
      } else {
        assert head + rest == rest;
      }
    }
  }

  /** The parameters of steps that follow `order` come out following `order`,
      and without repeats when `order` has none. */
  lemma BuildFollows(steps: seq<Step>, order: seq<ParamKey>)
    requires Sublist(StepKeys(steps), order) && DistinctKeys(order)
    ensures Sublist(Keys(Build(steps)), order)
    ensures DistinctKeys(Keys(Build(steps)))
    ensures DistinctKeys(StepKeys(steps))
  {
    BuildKeepsOrder(steps);
    SublistTrans(Keys(Build(steps)), StepKeys(steps), order);
    SublistDistinct(Keys(Build(steps)), order);
    SublistDistinct(StepKeys(steps), order);
  }
}

=== FILE: seqs.dfy ===
/** Order-preserving selection from a sequence, shared by the list operations
    built on `Array.prototype.filter`. */
module Seqs {
  /** `r` keeps some of the elements of `xs`, in their original order. */
  predicate IsSubsequence<T(==)>(r: seq<T>, xs: seq<T>)
    decreases |xs|
  {
    if r == [] then true
    else if xs == [] then false
    else if r[0] == xs[0] then IsSubsequence(r[1..], xs[1..])
    else IsSubsequence(r, xs[1..])
  }

  /** Skipping the head of `xs` keeps a subsequence a subsequence. */
  lemma {:induction false} SubsequenceSkip<T>(r: seq<T>, xs: seq<T>)
    requires xs != [] && IsSubsequence(r, xs[1..])
    ensures IsSubsequence(r, xs)
    decreases |xs|, 0
  {
    if r != [] && r[0] == xs[0] {
      SubsequenceTail(r, xs[1..]);
    }
  }

  /** Dropping the first kept element leaves a subsequence. */
  lemma {:induction false} SubsequenceTail<T>(r: seq<T>, xs: seq<T>)
    requires r != [] && IsSubsequence(r, xs)
    ensures IsSubsequence(r[1..], xs)
    decreases |xs|, 1
  {
    assert xs != [];
    if r[0] == xs[0] {
      SubsequenceSkip(r[1..], xs);
    } else {
      SubsequenceTail(r, xs[1..]);
      SubsequenceSkip(r[1..], xs);
    }
  }

  /** Every element of a subsequence comes from the sequence, and it is no
      longer. */
  lemma {:induction false} SubsequenceMembers<T>(r: seq<T>, xs: seq<T>)
    requires IsSubsequence(r, xs)
    ensures forall x :: x in r ==> x in xs
    ensures |r| <= |xs|
    decreases |xs|
  {
    if r != [] {
      if r[0] == xs[0] {
        SubsequenceMembers(r[1..], xs[1..]);
        assert forall x :: x in r ==> x == r[0] || x in r[1..];
      } else {
        SubsequenceMembers(r, xs[1..]);
      }
    }
  }
}

=== FILE: static_badge.dfy ===
/** Static badge URLs (`generateStaticBadge`, script.js:285-334): trimmed fields
    with defaults, the path `{label}-{message}-{color}` under the badge endpoint,
    then the query parameters that differ from the renderer's defaults. */
module StaticBadge {
  import opened Wrappers
  import opened Text
  import opened PathText
  import opened Query
  import opened Fields
  import opened PathTemplates

  /** `https://img.shields.io/badge/`: the static endpoint, under the same host
      prefix `buildDynamicUrl` uses. */
  const BadgeBase := DynamicBase + "badge/"

  /** The order in which the source appends query parameters. */
  const StaticOrder: seq<ParamKey> := [Style, LabelColor, LogoSvg, Logo, LogoColor, CacheSeconds]

  function LabelOf(f: Form): string { OrElse(Trim(f.labelText), "label") }
  function MessageOf(f: Form): string { OrElse(Trim(f.messageText), "message") }
  function LabelColorOf(f: Form): string { OrElse(Trim(f.labelColor), "555") }
  function MessageColorOf(f: Form): string { OrElse(Trim(f.messageColor), "brightgreen") }
  function CacheSecondsOf(f: Form): string { if f.cacheEnabled then f.cacheSeconds else "" }

  /** The badge path: escaped label, escaped message and the message colour,
      joined by single hyphens under the badge endpoint. */
  function StaticPath(f: Form): (p: string)
    ensures StartsWith(p, BadgeBase)
    ensures |p| == |BadgeBase| + |EncodeText(LabelOf(f))| + |EncodeText(MessageOf(f))| + |MessageColorOf(f)| + 2
    ensures OccursAt(EncodeText(LabelOf(f)), p, |BadgeBase|)
    ensures p[|BadgeBase| + |EncodeText(LabelOf(f))|] == '-'
    ensures OccursAt(EncodeText(MessageOf(f)), p, |BadgeBase| + |EncodeText(LabelOf(f))| + 1)
    ensures p[|BadgeBase| + |EncodeText(LabelOf(f))| + 1 + |EncodeText(MessageOf(f))|] == '-'
    ensures p[|p| - |MessageColorOf(f)|..] == MessageColorOf(f)
  {
    var p := BadgeBase + EncodeText(LabelOf(f)) + "-" + EncodeText(MessageOf(f)) + "-" + MessageColorOf(f);
    PathShape(BadgeBase, EncodeText(LabelOf(f)), EncodeText(MessageOf(f)), MessageColorOf(f));
    p
  }

  /** The values `generateStaticBadge` reads for its query parameters, after
      trimming and defaulting: the style select, the label colour, the uploaded
      logo, the logo slug and colour, and the cache time (empty unless the
      cache checkbox is ticked). */
  datatype Extras = Extras(style: string, labelColor: string, customLogo: Option<string>,
                           logo: string, logoColor: string, cache: string)

  function ExtrasOf(f: Form, customLogo: Option<string>): Extras {
    Extras(StyleOf(f), LabelColorOf(f), customLogo, LogoOf(f), LogoColorOf(f), CacheSecondsOf(f))
  }

  /** The conditional appends of `generateStaticBadge`, in source order. */
  function ExtraSteps(x: Extras): (steps: seq<Step>)
    ensures StepKeys(steps) == StaticOrder
  {
    [ Step(x.style != "" && x.style != "flat", Style, x.style),
      Step(x.labelColor != "" && x.labelColor != "555", LabelColor, x.labelColor),
      Step(HasCustomLogo(x.customLogo), LogoSvg, ValueOr(x.customLogo, "")),
      Step(!HasCustomLogo(x.customLogo) && x.logo != "", Logo, x.logo),
      Step(x.logoColor != "", LogoColor, x.logoColor),
      Step(x.cache != "", CacheSeconds, x.cache) ]
  }

  function StaticSteps(f: Form, customLogo: Option<string>): seq<Step> {
    ExtraSteps(ExtrasOf(f, customLogo))
  }

  /** The query parameters of a static badge. */
  function StaticParams(f: Form, customLogo: Option<string>): seq<QueryParam> {
    Build(StaticSteps(f, customLogo))
  }

  /** `generateStaticBadge`'s URL. It extends the badge path, and it is longer
      than the path exactly when some query parameter was added, in which case
      `?` and the serialized parameters follow; either way it lies under the
      badge endpoint. */
  function StaticUrl(f: Form, customLogo: Option<string>, enc: Encoder): (url: string)
    ensures StartsWith(url, StaticPath(f))
    ensures |url| > |StaticPath(f)| <==> StaticParams(f, customLogo) != []
    ensures |url| > |StaticPath(f)| ==>
      url[|StaticPath(f)|] == '?' && url[|StaticPath(f)| + 1..] == Serialize(StaticParams(f, customLogo), enc)
    ensures StartsWith(url, BadgeBase)
  {
    var url := AppendQuery(StaticPath(f), "?", Serialize(StaticParams(f, customLogo), enc));
    StartsWithTrans(url, StaticPath(f), BadgeBase);
    url
  }

  /** Where each piece of `base + lbl + "-" + msg + "-" + color` sits. */
  lemma PathShape(base: string, lbl: string, msg: string, color: string)
    ensures var p := base + lbl + "-" + msg + "-" + color;
      && StartsWith(p, base)
      && OccursAt(lbl, p, |base|)
      && p[|base| + |lbl|] == '-'
      && OccursAt(msg, p, |base| + |lbl| + 1)
      && p[|base| + |lbl| + 1 + |msg|] == '-'
      && p[|p| - |color|..] == color
  {
    var p := base + lbl + "-" + msg + "-" + color;
    assert StartsWith(base, base);
    StartsWithAppend(base, lbl, base);
    StartsWithAppend(base + lbl, "-", base);
    StartsWithAppend(base + lbl + "-", msg, base);
    StartsWithAppend(base + lbl + "-" + msg, "-", base);
    StartsWithAppend(base + lbl + "-" + msg + "-", color, base);
    assert p[|base|..|base| + |lbl|] == lbl;
    assert p[|base| + |lbl| + 1..|base| + |lbl| + 1 + |msg|] == msg;
    assert p[|p| - |color|..] == color;
  }

  /** Each parameter appears with the value the source gives it, exactly when
      it differs from the renderer's default: `style=flat` and `labelColor=555`
      are never sent, an uploaded logo is sent as `logoSvg` and then suppresses
      `logo`, and `cacheSeconds` needs the cache checkbox. */
  lemma StaticQueryRules(f: Form, customLogo: Option<string>)
    ensures var ps := StaticParams(f, customLogo);
      && Lookup(ps, Style) == (if f.style != "" && f.style != "flat" then Some(f.style) else None)
      && Lookup(ps, LabelColor)
         == (if Trim(f.labelColor) != "" && Trim(f.labelColor) != "555" then Some(Trim(f.labelColor)) else None)
      && Lookup(ps, LogoSvg) == (if HasCustomLogo(customLogo) then Some(customLogo.value) else None)
      && Lookup(ps, Logo)
         == (if !HasCustomLogo(customLogo) && Trim(f.logo) != "" then Some(Trim(f.logo)) else None)
      && Lookup(ps, LogoColor) == (if Trim(f.logoColor) != "" then Some(Trim(f.logoColor)) else None)
      && Lookup(ps, CacheSeconds)
         == (if f.cacheEnabled && f.cacheSeconds != "" then Some(f.cacheSeconds) else None)
  {
    var x := ExtrasOf(f, customLogo);
    ExtrasLogoRules(x);
    ExtrasOtherRules(x);
    NotDefault(f.style, "flat");
    NotDefault(Trim(f.labelColor), "555");
  }

  /** `logoSvg` and `logo` for any extras. */
  lemma ExtrasLogoRules(x: Extras)
    ensures var ps := Build(ExtraSteps(x));
      && Lookup(ps, LogoSvg) == (if HasCustomLogo(x.customLogo) then Some(x.customLogo.value) else None)
      && Lookup(ps, Logo) == (if !HasCustomLogo(x.customLogo) && x.logo != "" then Some(x.logo) else None)
  {
    StaticOrderDistinct();
    LookupBuild(ExtraSteps(x), 2);
    LookupBuild(ExtraSteps(x), 3);
  }

  /** The other four parameters for any extras. */
  lemma ExtrasOtherRules(x: Extras)
    ensures var ps := Build(ExtraSteps(x));
      && Lookup(ps, Style) == (if x.style != "" && x.style != "flat" then Some(x.style) else None)
      && Lookup(ps, LabelColor) == (if x.labelColor != "" && x.labelColor != "555" then Some(x.labelColor) else None)
      && Lookup(ps, LogoColor) == (if x.logoColor != "" then Some(x.logoColor) else None)
      && Lookup(ps, CacheSeconds) == (if x.cache != "" then Some(x.cache) else None)
  {
    StaticOrderDistinct();
    LookupBuild(ExtraSteps(x), 0);
    LookupBuild(ExtraSteps(x), 1);
    LookupBuild(ExtraSteps(x), 4);
    LookupBuild(ExtraSteps(x), 5);
  }

  /** Parameters appear in the order style, labelColor, logoSvg or logo,
      logoColor, cacheSeconds, each at most once, and `logoSvg` and `logo` are
      never both present. */
  lemma StaticQueryOrder(f: Form, customLogo: Option<string>)
    ensures Sublist(Keys(StaticParams(f, customLogo)), StaticOrder)
    ensures DistinctKeys(Keys(StaticParams(f, customLogo)))
    ensures !(Lookup(StaticParams(f, customLogo), LogoSvg).Some?
              && Lookup(StaticParams(f, customLogo), Logo).Some?)
  {
    var x := ExtrasOf(f, customLogo);
    SublistRefl(StaticOrder);
    StaticOrderDistinct();
    BuildFollows(ExtraSteps(x), StaticOrder);
    ExtrasLogoRules(x);
  }

  lemma StaticOrderDistinct()
    ensures DistinctKeys(StaticOrder)
  {
  }

  /** No `?` is added exactly when every optional field is at its default. */
  lemma StaticQueryEmpty(f: Form, customLogo: Option<string>)
    ensures StaticParams(f, customLogo) == [] <==>
      && (f.style == "" || f.style == "flat")
      && (IsBlank(f.labelColor) || Trim(f.labelColor) == "555")
      && !HasCustomLogo(customLogo)
      && IsBlank(f.logo)
      && IsBlank(f.logoColor)
      && !(f.cacheEnabled && f.cacheSeconds != "")
  {
    var x := ExtrasOf(f, customLogo);
    ExtrasEmpty(x);
    NotDefault(f.style, "flat");
    NotDefault(Trim(f.labelColor), "555");
    assert x.logo == "" <==> IsBlank(f.logo);
    assert x.logoColor == "" <==> IsBlank(f.logoColor);
  }

  /** No parameter is added exactly when every condition fails. */
  lemma ExtrasEmpty(x: Extras)
    ensures Build(ExtraSteps(x)) == [] <==>
      && !(x.style != "" && x.style != "flat")
      && !(x.labelColor != "" && x.labelColor != "555")
      && !HasCustomLogo(x.customLogo)
      && !(!HasCustomLogo(x.customLogo) && x.logo != "")
      && x.logoColor == ""
      && x.cache == ""
  {
    var steps := ExtraSteps(x);
    BuildEmpty(steps);
    assert (forall k :: 0 <= k < |steps| ==> !steps[k].cond) <==>
      !steps[0].cond && !steps[1].cond && !steps[2].cond && !steps[3].cond && !steps[4].cond && !steps[5].cond;
  }

  /** A field with a fallback differs from both "" and the fallback exactly
      when the raw value does. */
  lemma NotDefault(s: string, d: string)
    requires d != ""
    ensures var v := OrElse(s, d); v != "" && v != d <==> s != "" && s != d
  {
  }

  /** With every text field blank and nothing optional set, the URL is the
      plain default badge. */
  lemma StaticUrlDefault(f: Form, customLogo: Option<string>, enc: Encoder)
    requires IsBlank(f.labelText) && IsBlank(f.messageText)
    requires IsBlank(f.labelColor) && IsBlank(f.messageColor)
    requires f.style == "" || f.style == "flat"
    requires IsBlank(f.logo) && IsBlank(f.logoColor)
    requires !f.cacheEnabled && customLogo.None?
    ensures StaticUrl(f, customLogo, enc) == BadgeBase + "label" + "-" + "message" + "-" + "brightgreen"
  {
    var lbl, msg := LabelOf(f), MessageOf(f);
    assert lbl == "label" && msg == "message" && MessageColorOf(f) == "brightgreen";
    EncodeDefault(lbl);
    EncodeDefault(msg);
    assert StaticPath(f) == BadgeBase + lbl + "-" + msg + "-" + "brightgreen";
    StaticQueryEmpty(f, customLogo);
    assert Serialize(StaticParams(f, customLogo), enc) == [];
  }

  lemma EncodeDefault(x: string)
    requires x == "label" || x == "message"
    ensures EncodeText(x) == x
  {
    EncodeTextPlain(x);
  }
}

=== FILE: templates.dfy ===
/** The path templates of `buildDynamicUrl` (script.js:408-549): one template
    per service key, made of literal text, required placeholders and the two
    conditional segments of `github/downloads` and `sonar/quality_gate`. The
    `switch` is one table in the source; here its cases are grouped like the
    catalog so that the two tables can be compared group by group. */
module PathTemplates {
  import opened Text
  import opened Catalog

  /** `encodeURIComponent`, left abstract. */
  type UriEncoder = string -> string

  datatype Segment =
    | Lit(text: string)
      // `${paramValues.name}`
    | Field(param: ParamName)
      // `prefix` and the value, only when the value is truthy; the value goes
      // through `encodeURIComponent` when `encoded` holds
    | Optional(param: ParamName, prefix: string, encoded: bool)

  type Template = seq<Segment>

  const GitHubTemplates: map<string, Template> := map[
    "github/followers" := [Lit("github/followers/"), Field(User)],
    "github/stars" := [Lit("github/stars/"), Field(User), Lit("/"), Field(Repo)],
    "github/forks" := [Lit("github/forks/"), Field(User), Lit("/"), Field(Repo)],
    "github/watchers" := [Lit("github/watchers/"), Field(User), Lit("/"), Field(Repo)],
    "github/issues" := [Lit("github/issues/"), Field(User), Lit("/"), Field(Repo)],
    "github/issues-pr" := [Lit("github/issues-pr/"), Field(User), Lit("/"), Field(Repo)],
    "github/release" := [Lit("github/v/release/"), Field(User), Lit("/"), Field(Repo)],
    "github/tag" := [Lit("github/v/tag/"), Field(User), Lit("/"), Field(Repo)],
    "github/commits-since" := [Lit("github/commits-since/"), Field(User), Lit("/"), Field(Repo), Lit("/"), Field(Version)],
    "github/last-commit" := [Lit("github/last-commit/"), Field(User), Lit("/"), Field(Repo)],
    "github/license" := [Lit("github/license/"), Field(User), Lit("/"), Field(Repo)],
    "github/languages/top" := [Lit("github/languages/top/"), Field(User), Lit("/"), Field(Repo)],
    "github/repo-size" := [Lit("github/repo-size/"), Field(User), Lit("/"), Field(Repo)],
    "github/downloads" := [Lit("github/downloads/"), Field(User), Lit("/"), Field(Repo), Optional(Tag, "/", false), Lit("/total")]
  ]

  const NpmTemplates: map<string, Template> := map[
    "npm/v" := [Lit("npm/v/"), Field(Package)],
    "npm/dt" := [Lit("npm/dt/"), Field(Package)],
    "npm/dm" := [Lit("npm/dm/"), Field(Package)],
    "npm/dw" := [Lit("npm/dw/"), Field(Package)],
    "npm/dy" := [Lit("npm/dy/"), Field(Package)],
    "npm/l" := [Lit("npm/l/"), Field(Package)],
    "npm/node" := [Lit("node/v/"), Field(Package)],
    "npm/types" := [Lit("npm/types/"), Field(Package)]
  ]

  const NuGetTemplates: map<string, Template> := map[
    "nuget/v" := [Lit("nuget/v/"), Field(Package)],
    "nuget/dt" := [Lit("nuget/dt/"), Field(Package)],
    "nuget/vpre" := [Lit("nuget/vpre/"), Field(Package)]
  ]

  const PyPITemplates: map<string, Template> := map[
    "pypi/v" := [Lit("pypi/v/"), Field(Package)],
    "pypi/dm" := [Lit("pypi/dm/"), Field(Package)],
    "pypi/dw" := [Lit("pypi/dw/"), Field(Package)],
    "pypi/dd" := [Lit("pypi/dd/"), Field(Package)],
    "pypi/l" := [Lit("pypi/l/"), Field(Package)],
    "pypi/pyversions" := [Lit("pypi/pyversions/"), Field(Package)],
    "pypi/status" := [Lit("pypi/status/"), Field(Package)],
    "pypi/wheel" := [Lit("pypi/wheel/"), Field(Package)]
  ]

  const DockerTemplates: map<string, Template> := map[
    "docker/pulls" := [Lit("docker/pulls/"), Field(Image)],
    "docker/stars" := [Lit("docker/stars/"), Field(Image)],
    "docker/automated" := [Lit("docker/automated/"), Field(Image)],
    "docker/build" := [Lit("docker/build/"), Field(Image)]
  ]

  const SocialTemplates: map<string, Template> := map[
    "twitter/follow" := [Lit("twitter/follow/"), Field(User)],
    "reddit/subreddit-subscribers" := [Lit("reddit/subreddit-subscribers/"), Field(Subreddit)],
    "youtube/channel/subscribers" := [Lit("youtube/channel/subscribers/"), Field(ChannelId)],
    "youtube/channel/views" := [Lit("youtube/channel/views/"), Field(ChannelId)],
    "discord" := [Lit("discord/"), Field(ServerId)]
  ]

  const CiTemplates: map<string, Template> := map[
    "travis" := [Lit("travis/"), Field(User), Lit("/"), Field(Repo)],
    "circleci/build" := [Lit("circleci/build/"), Field(Vcs), Lit("/"), Field(User), Lit("/"), Field(Repo)],
    "appveyor/ci" := [Lit("appveyor/ci/"), Field(User), Lit("/"), Field(Repo)],
    "gitlab/pipeline" := [Lit("gitlab/pipeline/"), Field(User), Lit("/"), Field(Repo)],
    "github/workflow/status" := [Lit("github/workflow/status/"), Field(User), Lit("/"), Field(Repo), Lit("/"), Field(Workflow)]
  ]

  const QualityTemplates: map<string, Template> := map[
    "codecov/c" := [Lit("codecov/c/"), Field(Vcs), Lit("/"), Field(User), Lit("/"), Field(Repo)],
    "coveralls" := [Lit("coveralls/"), Field(Vcs), Lit("/"), Field(User), Lit("/"), Field(Repo)],
    "codeclimate/maintainability" := [Lit("codeclimate/maintainability/"), Field(User), Lit("/"), Field(Repo)],
    "codeclimate/tech-debt" := [Lit("codeclimate/tech-debt/"), Field(User), Lit("/"), Field(Repo)],
    "scrutinizer/g" := [Lit("scrutinizer/"), Field(Vcs), Lit("/"), Field(User), Lit("/"), Field(Repo)],
    "sonar/quality_gate" := [Lit("sonar/quality_gate/"), Field(Project), Optional(Server, "?server=", true)]
  ]

  const SecurityTemplates: map<string, Template> := map[
    "snyk/vulnerabilities" := [Lit("snyk/vulnerabilities/"), Field(Vcs), Lit("/"), Field(User), Lit("/"), Field(Repo)],
    "librariesio/dependents" := [Lit("librariesio/dependents/"), Field(Platform), Lit("/"), Field(Package)]
  ]

  /** Every `case` of the `switch`. */
  const Templates: map<string, Template> :=
    GitHubTemplates + NpmTemplates + NuGetTemplates + PyPITemplates + DockerTemplates
    + SocialTemplates + CiTemplates + QualityTemplates + SecurityTemplates

  /** `const baseUrl` of `buildDynamicUrl`. */
  const DynamicBase := "https://img.shields.io/"

  /** A template literal reads a missing property as `undefined`. */
  function Value(values: map<ParamName, string>, name: ParamName): (v: string)
    ensures name in values ==> v == values[name]
    ensures name !in values ==> v == "undefined"
  {
    if name in values then values[name] else "undefined"
  }

  /** JavaScript truthiness of `paramValues[name]`: present and non-empty. */
  predicate Truthy(values: map<ParamName, string>, name: ParamName) {
    name in values && values[name] != ""
  }

  function RenderSegment(seg: Segment, values: map<ParamName, string>, uriEnc: UriEncoder): string {
    match seg
    case Lit(text) => text
    case Field(p) => Value(values, p)
    case Optional(p, prefix, encoded) =>
      if Truthy(values, p) then prefix + (if encoded then uriEnc(values[p]) else values[p]) else ""
  }

  /** The text of segments `i..` of a template for the given parameter values. */
  function RenderFrom(t: Template, values: map<ParamName, string>, uriEnc: UriEncoder, i: nat): string
    requires i <= |t|
    decreases |t| - i
  {
    if i == |t| then "" else RenderSegment(t[i], values, uriEnc) + RenderFrom(t, values, uriEnc, i + 1)
  }

  /** The text of a template for the given parameter values. */
  function Render(t: Template, values: map<ParamName, string>, uriEnc: UriEncoder): string {
    RenderFrom(t, values, uriEnc, 0)
  }

  /** `buildDynamicUrl` for the `switch` table `cases` (the site's is
      `Templates`): the base URL followed by the key's template, or by the key
      itself when the `switch` has no case for it. */
  function BuildDynamicUrl(cases: map<string, Template>, key: string, values: map<ParamName, string>,
                           uriEnc: UriEncoder): (url: string)
    ensures StartsWith(url, DynamicBase)
    ensures key in cases ==> url[|DynamicBase|..] == Render(cases[key], values, uriEnc)
    ensures key !in cases ==> url[|DynamicBase|..] == key
  {
    var rest := if key in cases then Render(cases[key], values, uriEnc) else key;
    assert (DynamicBase + rest)[|DynamicBase|..] == rest;
    DynamicBase + rest
  }

  // ---- agreement with the catalog -----------------------------------------

  /** From segment `i` and parameter `j` on, the placeholders of `t` are the
      parameters `ps` in order, and a placeholder is conditional exactly when
      its parameter is optional. */
  predicate FitsFrom(t: Template, ps: seq<Param>, i: nat, j: nat)
    requires i <= |t| && j <= |ps|
    decreases |t| - i
  {
    if i == |t| then j == |ps|
    else if t[i].Lit? then FitsFrom(t, ps, i + 1, j)
    else
      j < |ps| && t[i].param == ps[j].name && t[i].Optional? == !ps[j].required
      && FitsFrom(t, ps, i + 1, j + 1)
  }

  /** The template fills in the service's parameters, in the catalog's order,
      and makes exactly the optional ones conditional. */
  predicate Fits(t: Template, svc: Service) {
    FitsFrom(t, svc.params, 0, 0)
  }

  /** Both tables have the same keys and every template fits its service. */
  predicate AllFit(services: map<string, Service>, templates: map<string, Template>) {
    services.Keys == templates.Keys
    && forall k :: k in services ==> Fits(templates[k], services[k])
  }

  lemma AllFitUnion(s1: map<string, Service>, t1: map<string, Template>,
                    s2: map<string, Service>, t2: map<string, Template>)
    requires AllFit(s1, t1) && AllFit(s2, t2)
    ensures AllFit(s1 + s2, t1 + t2)
  {
  }

  lemma GitHubFits() ensures AllFit(GitHubServices, GitHubTemplates) { GitHubKeys(); GitHubEach(); }
  lemma GitHubEach()
    ensures forall k :: k in GitHubServices ==> k in GitHubTemplates && Fits(GitHubTemplates[k], GitHubServices[k])
  {}
  lemma GitHubKeys() ensures GitHubServices.Keys == GitHubTemplates.Keys {}
  lemma NpmFits() ensures AllFit(NpmServices, NpmTemplates) {}
  lemma NuGetFits() ensures AllFit(NuGetServices, NuGetTemplates) {}
  lemma PyPIFits() ensures AllFit(PyPIServices, PyPITemplates) {}
  lemma DockerFits() ensures AllFit(DockerServices, DockerTemplates) {}
  lemma SocialFits() ensures AllFit(SocialServices, SocialTemplates) {}
  lemma CiFits() ensures AllFit(CiServices, CiTemplates) { CiKeys(); }
  lemma CiKeys() ensures CiServices.Keys == CiTemplates.Keys {}
  lemma QualityFits() ensures AllFit(QualityServices, QualityTemplates) { QualityKeys(); }
  lemma QualityKeys() ensures QualityServices.Keys == QualityTemplates.Keys {}
  lemma SecurityFits() ensures AllFit(SecurityServices, SecurityTemplates) {}

  /** Every catalog key has its own `case` (so the `default` branch is never
      taken for a catalog service), every `case` is a catalog key, and each
      template fills in exactly its service's parameters. */
  lemma CatalogFitsTemplates()
    ensures AllFit(Services, Templates)
  {
    GitHubFits(); NpmFits(); NuGetFits(); PyPIFits(); DockerFits();
    SocialFits(); CiFits(); QualityFits(); SecurityFits();
    var s, t := GitHubServices, GitHubTemplates;
    AllFitUnion(s, t, NpmServices, NpmTemplates);
    s, t := s + NpmServices, t + NpmTemplates;
    AllFitUnion(s, t, NuGetServices, NuGetTemplates);
    s, t := s + NuGetServices, t + NuGetTemplates;
    AllFitUnion(s, t, PyPIServices, PyPITemplates);
    s, t := s + PyPIServices, t + PyPITemplates;
    AllFitUnion(s, t, DockerServices, DockerTemplates);
    s, t := s + DockerServices, t + DockerTemplates;
    AllFitUnion(s, t, SocialServices, SocialTemplates);
    s, t := s + SocialServices, t + SocialTemplates;
    AllFitUnion(s, t, CiServices, CiTemplates);
    s, t := s + CiServices, t + CiTemplates;
    AllFitUnion(s, t, QualityServices, QualityTemplates);
    s, t := s + QualityServices, t + QualityTemplates;
    AllFitUnion(s, t, SecurityServices, SecurityTemplates);
  }

  /** When every parameter has a value and the required ones are non-empty, a
      fitting template reads no missing value: each placeholder is filled, and
      each unconditional one with a non-empty string. */
  lemma {:induction false} FilledPlaceholders(t: Template, ps: seq<Param>, i: nat, j: nat,
                                              values: map<ParamName, string>)
    requires i <= |t| && j <= |ps| && FitsFrom(t, ps, i, j)
    requires forall q :: j <= q < |ps| ==> ps[q].name in values
    requires forall q :: j <= q < |ps| && ps[q].required ==> values[ps[q].name] != ""
    ensures forall a :: i <= a < |t| && !t[a].Lit? ==> t[a].param in values
    ensures forall a :: i <= a < |t| && t[a].Field? ==> values[t[a].param] != ""
    decreases |t| - i
  {
    if i < |t| {
      if t[i].Lit? {
        FilledPlaceholders(t, ps, i + 1, j, values);
      } else {
        FilledPlaceholders(t, ps, i + 1, j + 1, values);
      }
    }
  }

  // ---- the two conditional templates ---------------------------------------
  //
  // Map lookups and string equalities on literal keys are costly for the
  // solver, so the working lemmas take the keys and texts as variables that
  // their preconditions pin down.

  /** `github/downloads` puts `/{tag}` before `/total` exactly when the tag is
      non-empty. */
  lemma DownloadsUrl(values: map<ParamName, string>, uriEnc: UriEncoder)
    ensures BuildDynamicUrl(Templates, "github/downloads", values, uriEnc)
      == DynamicBase + ("github/downloads/" + Value(values, User) + "/" + Value(values, Repo)
         + (if Truthy(values, Tag) then "/" + values[Tag] else "") + "/total")
  {
    DownloadsUrlAt("github/downloads", "github/downloads/", "/", "/total", values, uriEnc);
  }

  /** `sonar/quality_gate` appends `?server=` and the URI-encoded server exactly
      when the server is non-empty. */
  lemma SonarUrl(values: map<ParamName, string>, uriEnc: UriEncoder)
    ensures BuildDynamicUrl(Templates, "sonar/quality_gate", values, uriEnc)
      == DynamicBase + ("sonar/quality_gate/" + Value(values, Project)
         + (if Truthy(values, Server) then "?server=" + uriEnc(values[Server]) else ""))
  {
    SonarUrlAt("sonar/quality_gate", "sonar/quality_gate/", "?server=", values, uriEnc);
  }

  lemma DownloadsUrlAt(k: string, a: string, b: string, c: string,
                       values: map<ParamName, string>, uriEnc: UriEncoder)
    requires k == "github/downloads" && a == "github/downloads/" && b == "/" && c == "/total"
    ensures BuildDynamicUrl(Templates, k, values, uriEnc)
      == DynamicBase + (a + Value(values, User) + b + Value(values, Repo)
         + (if Truthy(values, Tag) then b + values[Tag] else "") + c)
  {
    DownloadsTemplate(k, a, b, c);
    RenderDownloadsShape(Templates[k], values, uriEnc, a, b, c);
  }

  lemma SonarUrlAt(k: string, a: string, b: string, values: map<ParamName, string>, uriEnc: UriEncoder)
    requires k == "sonar/quality_gate" && a == "sonar/quality_gate/" && b == "?server="
    ensures BuildDynamicUrl(Templates, k, values, uriEnc)
      == DynamicBase + (a + Value(values, Project)
         + (if Truthy(values, Server) then b + uriEnc(values[Server]) else ""))
  {
    SonarTemplate(k, a, b);
    RenderSonarShape(Templates[k], values, uriEnc, a, b);
  }

  /** The `github/downloads` case, segment by segment. */
  lemma DownloadsTemplate(k: string, a: string, b: string, c: string)
    requires k == "github/downloads" && a == "github/downloads/" && b == "/" && c == "/total"
    ensures k in Templates
    ensures Templates[k] == [Lit(a), Field(User), Lit(b), Field(Repo), Optional(Tag, b, false), Lit(c)]
  {
    DownloadsOnlyInGitHub(k);
    GitHubDownloads(k, a, b, c);
    var m := GitHubTemplates;
    MergeLeft(m, NpmTemplates, k);
    m := m + NpmTemplates;
    MergeLeft(m, NuGetTemplates, k);
    m := m + NuGetTemplates;
    MergeLeft(m, PyPITemplates, k);
    m := m + PyPITemplates;
    MergeLeft(m, DockerTemplates, k);
    m := m + DockerTemplates;
    MergeLeft(m, SocialTemplates, k);
    m := m + SocialTemplates;
    MergeLeft(m, CiTemplates, k);
    m := m + CiTemplates;
    MergeLeft(m, QualityTemplates, k);
    m := m + QualityTemplates;
    MergeLeft(m, SecurityTemplates, k);
  }

  /** A key only the left map has keeps its left value in the union. */
  lemma MergeLeft(l: map<string, Template>, r: map<string, Template>, k: string)
    requires k in l && k !in r
    ensures k in l + r && (l + r)[k] == l[k]
  {
  }

  lemma DownloadsOnlyInGitHub(k: string)
    requires k == "github/downloads"
    ensures k !in NpmTemplates && k !in NuGetTemplates && k !in PyPITemplates && k !in DockerTemplates
    ensures k !in SocialTemplates && k !in CiTemplates && k !in QualityTemplates && k !in SecurityTemplates
  {
  }

  lemma GitHubDownloads(k: string, a: string, b: string, c: string)
    requires k == "github/downloads" && a == "github/downloads/" && b == "/" && c == "/total"
    ensures k in GitHubTemplates
    ensures GitHubTemplates[k] == [Lit(a), Field(User), Lit(b), Field(Repo), Optional(Tag, b, false), Lit(c)]
  {
  }

  /** The `sonar/quality_gate` case, segment by segment. */
  lemma SonarTemplate(k: string, a: string, b: string)
    requires k == "sonar/quality_gate" && a == "sonar/quality_gate/" && b == "?server="
    ensures k in Templates
    ensures Templates[k] == [Lit(a), Field(Project), Optional(Server, b, true)]
  {
    assert k !in SecurityTemplates;
  }

  lemma RenderDownloadsShape(t: Template, values: map<ParamName, string>, uriEnc: UriEncoder,
                             a: string, b: string, c: string)
    requires t == [Lit(a), Field(User), Lit(b), Field(Repo), Optional(Tag, b, false), Lit(c)]
    ensures Render(t, values, uriEnc) == a + Value(values, User) + b + Value(values, Repo)
      + (if Truthy(values, Tag) then b + values[Tag] else "") + c
  {
    var tag := if Truthy(values, Tag) then b + values[Tag] else "";
    var user, repo := Value(values, User), Value(values, Repo);
    assert RenderFrom(t, values, uriEnc, 5) == c;
    assert RenderFrom(t, values, uriEnc, 4) == tag + c;
    assert RenderFrom(t, values, uriEnc, 3) == repo + (tag + c);
    assert RenderFrom(t, values, uriEnc, 2) == b + (repo + (tag + c));
    assert RenderFrom(t, values, uriEnc, 1) == user + (b + (repo + (tag + c)));
    Reassociate(a, user, b, repo, tag, c);
  }

  lemma Reassociate(s1: string, s2: string, s3: string, s4: string, s5: string, s6: string)
    ensures s1 + (s2 + (s3 + (s4 + (s5 + s6)))) == s1 + s2 + s3 + s4 + s5 + s6
  {
  }

  lemma RenderSonarShape(t: Template, values: map<ParamName, string>, uriEnc: UriEncoder, a: string, b: string)
    requires |t| == 3 && t[0] == Lit(a) && t[1] == Field(Project) && t[2] == Optional(Server, b, true)
    ensures Render(t, values, uriEnc)
      == a + Value(values, Project) + (if Truthy(values, Server) then b + uriEnc(values[Server]) else "")
  {
    var server := if Truthy(values, Server) then b + uriEnc(values[Server]) else "";
    assert RenderFrom(t, values, uriEnc, 2) == server;
    assert RenderFrom(t, values, uriEnc, 1) == Value(values, Project) + server;
  }
}

=== FILE: text.dfy ===
/** String helpers with the meaning JavaScript gives them in the badge generator:
    `trim`, `a || b` on strings, `startsWith`, `includes` and `toLowerCase`.
    Strings are `seq<char>`; only ASCII case folding and ASCII whitespace are modelled. */
module Text {

  /** The ASCII characters `String.prototype.trim` removes: space, tab, line feed,
      vertical tab, form feed and carriage return. */
  predicate IsSpace(c: char) {
    c == ' ' || c == '\t' || c == '\n' || c == '\r' || c == '\U{0B}' || c == '\U{0C}'
  }

  /** Every character of `s` is whitespace (in particular, the empty string). */
  predicate IsBlank(s: string) {
    forall i :: 0 <= i < |s| ==> IsSpace(s[i])
  }

  /** `needle` occurs in `hay` at offset `k`. */
  ghost predicate OccursAt(needle: string, hay: string, k: int) {
    0 <= k && k + |needle| <= |hay| && hay[k..k + |needle|] == needle
  }

  /** The first index at or after `i` that holds no whitespace, or `|s|`. */
  function SkipSpaces(s: string, i: nat): (k: nat)
    requires i <= |s|
    ensures i <= k <= |s|
    ensures forall j :: i <= j < k ==> IsSpace(s[j])
    ensures k == |s| || !IsSpace(s[k])
    decreases |s| - i
  {
    if i < |s| && IsSpace(s[i]) then SkipSpaces(s, i + 1) else i
  }

  /** Walking back from `e` towards `a`, the end of the last character that
      is no whitespace, or `a`. */
  function BackSpaces(s: string, a: nat, e: nat): (k: nat)
    requires a <= e <= |s|
    ensures a <= k <= e
    ensures forall j :: k <= j < e ==> IsSpace(s[j])
    ensures k == a || !IsSpace(s[k - 1])
    decreases e
  {
    if a < e && IsSpace(s[e - 1]) then BackSpaces(s, a, e - 1) else e
  }

  /** `s.trim()`: a slice of `s` with no whitespace at either end, and everything
      cut away on both sides is whitespace. It is empty exactly when `s` is blank. */
  function Trim(s: string): (r: string)
    ensures exists k :: OccursAt(r, s, k) && IsBlank(s[..k]) && IsBlank(s[k + |r|..])
    ensures r == [] || (!IsSpace(r[0]) && !IsSpace(r[|r| - 1]))
    ensures r == [] <==> IsBlank(s)
  {
    var a := SkipSpaces(s, 0);
    var b := BackSpaces(s, a, |s|);
    assert OccursAt(s[a..b], s, a) && IsBlank(s[..a]) && IsBlank(s[b..]);
    assert a < b ==> s[a..b][0] == s[a] && s[a..b][b - a - 1] == s[b - 1];
    s[a..b]
  }

  /** JavaScript's `s || fallback` on a string: an empty string is falsy. */
  function OrElse(s: string, fallback: string): (r: string)
    ensures s != [] ==> r == s
    ensures s == [] ==> r == fallback
  {
    if s == [] then fallback else s
  }

  /** `s.startsWith(prefix)`. */
  predicate StartsWith(s: string, prefix: string) {
    |prefix| <= |s| && s[..|prefix|] == prefix
  }

  /** A prefix of a prefix is a prefix. */
  lemma StartsWithTrans(a: string, b: string, c: string)
    requires StartsWith(a, b) && StartsWith(b, c)
    ensures StartsWith(a, c)
  {
    assert a[..|c|] == a[..|b|][..|c|];
  }

  /** A sequence extended on the right keeps its prefixes. */
  lemma StartsWithAppend(a: string, b: string, c: string)
    requires StartsWith(a, c)
    ensures StartsWith(a + b, c)
  {
    assert (a + b)[..|c|] == a[..|c|];
  }

  /** `hay.includes(needle)`, computed by scanning `hay` from the left. */
  function Includes(hay: string, needle: string): (b: bool)
    ensures b <==> exists k :: OccursAt(needle, hay, k)
    decreases |hay|
  {
    if StartsWith(hay, needle) then
      assert OccursAt(needle, hay, 0);
      true
    else if |hay| <= |needle| then
      false
    else
      var b := Includes(hay[1..], needle);
      IncludesShift(hay, needle);
      b
  }

  /** An occurrence away from offset 0 is an occurrence in the tail, and back. */
  lemma IncludesShift(hay: string, needle: string)
    requires |hay| > 0 && !StartsWith(hay, needle)
    ensures (exists k :: OccursAt(needle, hay, k)) <==> (exists k :: OccursAt(needle, hay[1..], k))
  {
    forall k | OccursAt(needle, hay[1..], k) ensures OccursAt(needle, hay, k + 1) {
      assert hay[1..][k..k + |needle|] == hay[k + 1..k + 1 + |needle|];
    }
    forall k | OccursAt(needle, hay, k) ensures OccursAt(needle, hay[1..], k - 1) {
      assert k != 0 by {
        if k == 0 { assert hay[..|needle|] == hay[0..|needle|]; }
      }
      assert hay[1..][k - 1..k - 1 + |needle|] == hay[k..k + |needle|];
    }
  }

  /** ASCII `toLowerCase` of one character. */
  function LowerChar(c: char): (d: char)
    ensures 'A' <= c <= 'Z' ==> 'a' <= d <= 'z' && d as int - c as int == 32
    ensures !('A' <= c <= 'Z') ==> d == c
  {
    if 'A' <= c <= 'Z' then (c as int + 32) as char else c
  }

  /** ASCII `toLowerCase`: same length, each character lowered, no upper-case
      ASCII letter left. */
  function Lower(s: string): (r: string)
    ensures |r| == |s|
    ensures forall i :: 0 <= i < |s| ==> r[i] == LowerChar(s[i])
    ensures forall i :: 0 <= i < |r| ==> !('A' <= r[i] <= 'Z')
  {
    seq(|s|, i requires 0 <= i < |s| => LowerChar(s[i]))
  }

  /** Number of occurrences of `c` in `s`. */
  function Count(s: string, c: char): (n: nat)
    ensures n <= |s|
    ensures n == 0 <==> c !in s
  {
    if s == [] then 0 else (if s[0] == c then 1 else 0) + Count(s[1..], c)
  }
}

=== FILE: wrappers.dfy ===
/** A value the page may not have: the uploaded logo before any upload, or
    the dynamic path when the generator gives up. */
module Wrappers {

  datatype Option<T> = None | Some(value: T)

  /** The carried value, and `fallback` for `None` (the `|| ''` idiom the page
      uses on possibly missing values). */
  function ValueOr<T>(o: Option<T>, fallback: T): (v: T)
    ensures o.Some? ==> v == o.value
    ensures o.None? ==> v == fallback
  {
    if o.Some? then o.value else fallback
  }
}
